=== FILE: README.md ===
# Cloud CNC controller — a Dafny model of its link and routing core

The Cloud CNC controller is an edge gateway. It connects CNC machines on
serial links to a cloud control plane. This project models the core of that
gateway as pure functions over explicit events, and proves properties of
that model:

- **Serial controller** (`serial.dfy`, lib/serial.js). Each configured
  machine has one reconnecting link. The link keeps an attempt counter, its
  current port, one-shot `open`/`close` listeners and its pending reconnect
  timers. The controller also keeps the machine list (`registry.dfy`). That
  list is looked up by exact id, updated when a timer installs a new port,
  and shrunk when a machine fails fatally.
- **Cloud link over websocket** (`websocket.dfy`, lib/websocket.js). It is
  the second reconnecting link. Its counter is never reset. Inbound frames
  are dispatched on their `event` field. A `command` or `execute` request is
  handed out with a responder. The responder answers with a
  `response:command` or `response:execute` frame that echoes the request's
  `_id` and `machine`.
- **Cloud session over socket.io** (`socket.dfy`, lib/socket.js). It checks
  the `machine` of each `command`/`execute` against the machine list it was
  built with. It drops requests for unknown machines. For known machines it
  re-emits a fresh `{machine, payload}` object. It forwards errors only when
  an `error` listener exists. `send` builds the `output` frame.
- **Emulated serial binding** (`ipc_binding.dfy`, lib/ipcBinding.js). It is
  the pipe-backed test binding. It models the receive buffer (`open` adds
  "READY", pipe messages append, reads pop, `flush` clears). It also models
  control lines driven by the client count, the baud-rate default, and the
  process-wide list of opened pipes with increasing serial numbers.

Both reconnecting links share one decision, `Supervisor.Reconnect`
(`supervisor.dfy`). It gives up when the limit is finite and reached, and
otherwise counts one more attempt. The two links differ in what surrounds
that decision. On the serial link a successful open resets the counter to 0.
On the cloud link nothing ever resets it. The model keeps this difference.
Take a limit N of at least 1 and a history of N reconnects that each opened
the new transport, followed by one more close. `Serial.ReopenedLinkRetriesNextClose`
proves that the serial link retries that close with its counter at 1.
`Websocket.FiniteLimitDisconnects` proves that the cloud link gives up on it.

Timers, ports and sockets become explicit inputs:

- Port and socket notifications are `Event` values.
- A reconnect timer firing is a `Fired` event.
- Every new transport gets a fresh numeric identity.

A step returns the next state and the events the JavaScript would emit. It
returns a crash when a listener would throw. There are five such cases:

- serial: `emit('error')` with no `error` listener (lib/serial.js:86);
- serial: the reconnect timer's `find(...)` returns `undefined`, and the
  property write on it throws (lib/serial.js:138);
- websocket: a frame that does not parse, or parses to `null`, so that
  `message.event` throws (lib/websocket.js:58-60);
- socket.io session: a `command` or `execute` whose body is `null` or
  `undefined`, so that `data.machine` throws (lib/socket.js:91, :115);
- emulated binding: a pipe message that arrives before any read has parked,
  so `this.triggerRead` is not yet a function (lib/ipcBinding.js:97).

JavaScript values are the `Json.Value` datatype. Its `Undefined` stands for
a missing property.

Notes on how the model reads the code:

- The cloud link does not reset its counter on open.
- `send` to an unknown machine rejects because `undefined.path` throws. It
  does not raise a dedicated not-found error.
- The fatal-error removal at lib/serial.js:96 is written wrongly; see
  Findings. The model holds both versions. `Serial.OnErrorAsWritten` is the
  code as written, and `Serial.SpliceStrandsOtherMachines` shows its effect:
  every other machine leaves the list, `send` to it rejects, and its next
  reconnect timer throws at lib/serial.js:138. `Serial.Step`, `Serial.Run`
  and every lemma built on them use the intended removal,
  `Registry.Remove`. That removal drops the entry that `find` locates for
  the failing machine's id, which is the first entry with that id.
- Lookups by id assume distinct ids. `Serial.Routed` holds exactly when the
  configured ids are distinct and every listed machine holds its own link's
  current port. It holds from construction on and is kept by every event.
  Under it, a reply sent to a machine's id reaches the port that machine's
  data came from.
- No modelled file wraps `execute` bodies in M28/M29 markers or broadcasts
  failsafe commands.

## Model

| member | source | states |
|---|---|---|
| Supervisor.Reconnect | lib/serial.js:118-125 | gives up exactly when the limit is not -1 and the counter has reached it; otherwise the counter goes up by exactly one |
| Json.Member | lib/websocket.js:58-60 | property access throws exactly on `null` and `undefined`; on an object it yields the field when present and `undefined` when absent; a defined result always comes from an object field |
| Json.Stringified | lib/websocket.js:66-71 | the serialised object keeps exactly the keys whose values are not `undefined`, with their values |
| Registry.Find | lib/serial.js:165 | finds an entry iff some entry has exactly that id, and then it is the first such entry |
| Registry.Remove | lib/serial.js:95-96 | intended removal: a list without the id is unchanged; otherwise exactly one entry leaves, nothing new appears, every entry with another id survives, and with distinct ids no entry keeps the id |
| Registry.RemoveKeepsOtherMachines | lib/serial.js:95-96 | after removing one id, every other id present before is still found, at the very same entry, so `send` to the other machines is unaffected |
| Registry.SpliceAsWritten | lib/serial.js:96 | the list as written after `splice(index, 1)`: at most one entry, taken from the old list |
| Registry.SetPort | lib/serial.js:138 | fails iff no entry has the id; otherwise only the first entry with the id gets the new port, every configuration and every other entry is unchanged |
| Registry.SpliceKeepsOnlyTheFailedMachine | lib/serial.js:96 | the assignment as written leaves only the failed machine in a two-machine list and drops the healthy one, where the intended removal leaves only the healthy one |
| Serial.Init | lib/serial.js:42-151 | one entry per configured machine, in order, each holding its own fresh port (pairwise distinct); every counter starts at 0 with no timer pending and both one-shot listeners armed (lib/serial.js:113); the limit and listener flag are as given; with distinct ids the controller starts routed |
| Serial.Step | lib/serial.js:54-142 | any event keeps the controller well formed and keeps the configuration, the limit and the listener flag |
| Serial.Run | lib/serial.js:54-142 | the same holds after any sequence of events |
| Serial.OpenResetsAttempts | lib/serial.js:54-59 | the first open of a port emits `open` and sets that machine's counter to exactly 0 whatever it was; other machines, the port and the list are untouched |
| Serial.CloseReconnectsOnce | lib/serial.js:61-68 | a close emits `close` and runs `reconnect` once: either one `disconnect` with the machine, counter and timers unchanged, or counter and timers each up by one; a second close from the same port does nothing |
| Serial.UnlimitedCloseRetries | lib/serial.js:116-125 | with limit -1 a close never emits `disconnect` and always increments the counter |
| Serial.UnlimitedNeverDisconnects | lib/serial.js:116-125 | with limit -1 no sequence of events emits `disconnect` |
| Serial.OneFailedAttempt | lib/serial.js:116-142 | below the limit, close then timer emits one `close`, adds one to the counter, keeps the timer count and re-arms the listeners on a new port, the next fresh one, different from the old |
| Serial.CyclesCountAttempts | lib/serial.js:116-143 | while below the limit, k failed attempts add exactly k to the counter and emit exactly k `close` events and no `disconnect` |
| Serial.FiniteLimitDisconnects | lib/serial.js:116-143 | with a finite limit N and a counter at 0, N failed attempts are retried and the next close emits exactly one `disconnect` carrying the machine, with no new timer |
| Serial.ReopeningLinkNeverGivesUp | lib/serial.js:54-68 | with a limit of at least 1, a machine whose every reconnect opens never emits `disconnect` and its counter is back at 0 |
| Serial.ReopenedLinkRetriesNextClose | lib/serial.js:54-125 | after k reconnects that each opened, one more close is still retried: no `disconnect`, counter at 1 |
| Serial.DataRepliesReachSender | lib/serial.js:70-81 | in a routed controller, data from machine i is emitted as `{_id, data}` with i's id and nothing else changes, and `send` to that id writes to the port the data came from |
| Serial.StepKeepsRouted | lib/serial.js:54-142 | every event keeps a routed controller routed: ids stay distinct and every listed machine keeps its own link's current port, including after the timer installs a new one |
| Serial.RunKeepsRouted | lib/serial.js:54-142 | the routing invariant holds after any sequence of events |
| Serial.ErrorHandling | lib/serial.js:83-103 | with no `error` listener the handler throws; "File not found" emits only the error when it retries (or the error and `disconnect` when it gives up), reconnects and leaves the list, the port and other machines alone; any other error emits it twice (plain, then tagged with the machine id), removes the machine and does not reconnect |
| Serial.Send | lib/serial.js:159-171 | rejects with no write iff no entry has exactly that id; otherwise writes the data to the port of the first entry with that id |
| Serial.SendAfterFatalErrorRejected | lib/serial.js:88-102 | after a fatal error of a machine with distinct ids, sending to its id is rejected, and sending to any other listed id reaches the same port as before |
| Serial.OnErrorAsWritten | lib/serial.js:83-103 | as written, a fatal error leaves at most one entry in the list and no link changed; every other branch is the intended handler's |
| Serial.SpliceStrandsOtherMachines | lib/serial.js:96 | as written, a fatal error on the first of two machines leaves only it listed, `send` to the second rejects and the second's next timer throws; with the intended removal the second stays reachable and its timer succeeds |
| Serial.FiredInstallsFreshPort | lib/serial.js:128-142 | a timer for a machine that is no longer listed throws; otherwise the machine gets a port no link held before, its listeners are re-armed, its counter is kept, other links are untouched, and only one list entry changes, so that `send` now reaches the new port |
| Websocket.Init | lib/websocket.js:108 | the link starts on its first socket with a counter of 0 and no timers |
| Websocket.Step | lib/websocket.js:42-140 | no event lowers the attempt counter or changes the limit |
| Websocket.Run | lib/websocket.js:42-140 | the counter is non-decreasing over any sequence of events |
| Websocket.AttemptsNeverDecrease | lib/websocket.js:42-46 | opening emits `open` and leaves the state, the counter included, unchanged; over any run the counter never decreases |
| Websocket.CloseReconnectsOnce | lib/websocket.js:48-54 | every close runs `reconnect` exactly once: one `disconnect` with no state change, or the counter and timers each up by one |
| Websocket.UnlimitedNeverDisconnects | lib/websocket.js:111-125 | with limit -1 no sequence of events emits `disconnect` |
| Websocket.OneCycle | lib/websocket.js:111-140 | below the limit, close then timer (then an optional open) adds one to the counter and emits only the `open` |
| Websocket.CyclesCountAttempts | lib/websocket.js:111-140 | below the limit, k reconnect cycles add exactly k to the counter whether or not each new socket opened, and emit no `disconnect` |
| Websocket.FiniteLimitDisconnects | lib/websocket.js:111-125 | with a finite limit N and a counter at 0, N closes are retried and the next one emits `disconnect`, even when every new socket opened in between |
| Websocket.Respond | lib/websocket.js:63-87 | a response frame goes to the current socket, has `event` `response:command` or `response:execute`, and copies the request's `_id` and `machine` exactly when the request had them; the result is sent under `response` or `success` |
| Websocket.RequestIsEmittedAndAnswered | lib/websocket.js:56-90 | a `command` or `execute` frame is emitted unchanged under its own event; its responder's frame echoes the request's `_id` and `machine` with the matching `response:` event |
| Websocket.OtherFramesIgnored | lib/websocket.js:56-90 | a frame with any other `event`, or one that is not an object, emits nothing; an unparsable frame or `null` throws |
| Socket.Sanitized | lib/socket.js:104-107 | the re-emitted object has exactly the keys `machine` and `payload`, copied from the request |
| Socket.Route | lib/socket.js:88-133 | a request throws iff it is null or undefined; it emits nothing unless its `machine` is the id of a registered machine, and then exactly one sanitized event of its own kind |
| Socket.Step | lib/socket.js:47-133 | `connect` and `disconnect` are forwarded as `connected` and `disconnect`; an event throws iff it is a request whose body is null or undefined; no event emits more than one event |
| Socket.ForwardError | lib/socket.js:54-75 | an error is re-emitted iff at least one `error` listener exists, and otherwise nothing is emitted |
| Socket.Send | lib/socket.js:141-148 | one `output` frame whose body has exactly the keys `machine` and `payload` with the given values |
| Socket.RequestRouting | lib/socket.js:88-133 | for a known machine both `command` and `execute` re-emit exactly `{machine, payload}`, dropping all other fields; for an unknown machine neither emits anything |
| Socket.RoutingIgnoresPositions | lib/socket.js:91-97 | two sessions whose lists hold the same ids handle every event identically, so validation never depends on list position |
| Socket.ErrorsGatedByListeners | lib/socket.js:54-75 | connection errors and socket errors are handled alike and never throw; they agree with a bare EventEmitter `emit('error')` whenever that would not throw, and are dropped where it would |
| Socket.OutputFrameIsSanitized | lib/socket.js:141-148 | an `output` frame body is already exactly `{machine, payload}`: sanitising it changes nothing, and as a request for a registered machine it is re-emitted as is |
| IpcBinding.New | lib/ipcBinding.js:37-48 | a new binding has no clients, an empty buffer, is not open and has no parked read |
| IpcBinding.Open | lib/ipcBinding.js:56-107 | appends one pipe entry with this path and the current serial number, then advances the counter and keeps the numbering well formed; the buffer becomes its old contents followed by "READY"; the server id is "/" + path |
| IpcBinding.ListRecordsEveryOpen | lib/ipcBinding.js:61-65 | after any sequence of opens, `list` returns the earlier entries followed by one entry per open, in order, with consecutive serial numbers |
| IpcBinding.List | lib/ipcBinding.js:29-32 | returns one entry per recorded pipe, and in a well-numbered state no two share a serial number |
| IpcBinding.Read | lib/ipcBinding.js:130-160 | intended read: an empty buffer parks the arguments and returns nothing yet; otherwise the front of the buffer, at most `length` bytes, lands at `offset`, the rest of the caller's buffer is untouched, and exactly those bytes leave the receive buffer, which equals the old one minus its first `length` bytes |
| IpcBinding.ReadAsWritten | lib/ipcBinding.js:130-160 | the read as written: parks on an empty buffer; otherwise it delivers as many bytes as fit after `offset` (all of `rx` or the rest of the buffer), while `rx` loses only its first `length` bytes |
| IpcBinding.ReadAsWrittenDuplicatesBytes | lib/ipcBinding.js:150-153 | the read as written hands out four bytes from "ABCD" when asked for two, and still keeps "CD" for the next read |
| IpcBinding.OnMessage | lib/ipcBinding.js:88-98 | a message appends its bytes after the old buffer; with no parked read the handler throws; otherwise the parked read runs again, as the corrected `Read`, with the same arguments and stays parked |
| IpcBinding.ReadWaitsForMessage | lib/ipcBinding.js:134-145 | a read on an empty buffer does not complete; the next non-empty message completes it, under the corrected `Read`, with the same arguments, delivering the first min(message length, `length`) bytes of that message |
| IpcBinding.MessageAppends | lib/ipcBinding.js:88-97 | with no parked read the buffer becomes the old bytes followed by the message; with a parked read that completes, the bytes copied into the parked buffer followed by the bytes left buffered are exactly the old buffer followed by the message, in order |
| IpcBinding.Flush | lib/ipcBinding.js:233-238 | the receive buffer is empty and nothing else changes |
| IpcBinding.FlushIdempotent | lib/ipcBinding.js:233-238 | flushing twice equals flushing once, and a read after a flush waits for new data |
| IpcBinding.Get | lib/ipcBinding.js:200-213 | `cts` is always true, `dsr` always false, and `dcd` holds iff the client count is positive |
| IpcBinding.ClientConnected | lib/ipcBinding.js:78-81 | the client count goes up by one and nothing else changes |
| IpcBinding.ClientDisconnected | lib/ipcBinding.js:82-85 | the client count goes down by one and nothing else changes |
| IpcBinding.CarrierFollowsClients | lib/ipcBinding.js:78-85 | from zero clients, carrier detect is up after n connections iff n > 0, and a disconnect undoes a connect |
| IpcBinding.Update | lib/ipcBinding.js:179-184 | the baud rate becomes the supplied value, or 9600 when it is missing, zero, empty or otherwise falsy; nothing else changes |
| IpcBinding.GetBaudRate | lib/ipcBinding.js:220-227 | answers `{baudRate}` and nothing else, with the value the binding holds |
| IpcBinding.UpdateLastWins | lib/ipcBinding.js:179-184 | read back through `getBaudRate`, the last update wins, and the rate read back is never falsy |

## Left out

- The real transports are left out: the serial port, `ws`, socket.io and node-ipc objects. They are foreign libraries, so they appear only as the events they deliver. Events from a port or socket that has been replaced are not modelled, because its listeners are all removed first.
- Timer delays and asynchronous scheduling are left out. A timer firing is a `Fired` event, and a timer fires at most as often as one was armed.
- Logging, configuration reads, the top-level wiring in index.js and the interactive probe lab.js are not part of this model.
- Serial.Send: the model does not cover the data listener `send` attaches to resolve its promise with the next reply, nor the leak of such listeners. Promise resolution is asynchronous plumbing outside the event model.
- Serial.Step: received bytes arrive already decoded to text, so `toString` is not modelled.
- Serial.Step: the owner's `error` listener is modelled as permanently present or absent. A `once` listener that vanishes between the two `error` emits is not modelled.
- Serial.Step: it applies the intended removal, `Registry.Remove`, not the assignment at lib/serial.js:96, so it and every lemma over `Serial.Run` describe the corrected controller. The code as written is `Serial.OnErrorAsWritten`; its consequences are stated only by `Serial.SpliceStrandsOtherMachines`.
- Registry.Remove: with two entries sharing an id it removes the first, which `find` would locate, and keeps the other, even when the failing machine is the second. The source never tells such entries apart, since every lookup is by id.
- Serial.SendAfterFatalErrorRejected: the rejection is promised only when the list's ids are distinct; a twin entry with the same id stays reachable.
- Serial.FiredInstallsFreshPort: when the timer's lookup fails the model stops at the crash. It does not model the port the JavaScript had already created.
- Socket.Route: an id matches only a string equal to it. JavaScript's loose `==` would also match, say, the number 5 against the id "5"; that coercion is not modelled.
- Socket reconnection is delegated to socket.io's own options, a foreign library, so it is not modelled.
- Websocket.Respond: only top-level `undefined` fields are dropped as `JSON.stringify` would. Nested `undefined` values and non-integer numbers are not modelled.
- IpcBinding: `close`, `write`, `set` and `drain` are not modelled. The first two only call the foreign IPC server, and `set` and `drain` do nothing.
- IpcBinding.Read: it requires that `offset + length` fits in the caller's buffer. The abstract binding base class, which is not part of this model, rejects other reads before this code runs.
- IpcBinding.OnMessage: the parked read is re-run as the corrected `IpcBinding.Read`, not as the read written at lib/ipcBinding.js:150-153 that `triggerRead` calls. With a parked buffer that has room beyond `offset + length`, the code as written delivers more bytes than it pops; see Findings.
- IpcBinding.ReadWaitsForMessage: its byte count min(message length, `length`) is the corrected read's. The code as written delivers min(message length, buffer length minus `offset`).
- IpcBinding.MessageAppends: the completed-read case is stated for the corrected read, under which delivered and buffered bytes add up exactly; as written, bytes past `length` are delivered and also kept.
- IpcBinding.OnMessage: the parked read is re-run, but the model does not track whether its promise has already been resolved.
- IpcBinding.MessageAppends: it does not promise that the copied bytes reach a reader. The parked read is never cleared (lib/ipcBinding.js:140-143), so a message that arrives after that read was answered, and before the next read parks again, is copied into the old buffer by a stale re-run and taken out of `rx`, while the settled promise delivers it to no one. The model does not track whether the parked read is still pending.

## Findings

| source | as written | input that shows it | evidently intended | confidence | as-written member | corrected member |
|---|---|---|---|---|---|---|
| lib/serial.js:96 | the machine list is replaced by the result of `splice`, which is the removed entry, so the failing machine stays and all the others go (and `index` is the position in the original configuration, stale after an earlier removal) | two machines m0 and m1; a non-"File not found" error on m0 leaves the list as [m0], so `send` to m1 now rejects, m0 is still reachable, and m1's next reconnect timer throws at lib/serial.js:138 | remove only the failing machine from the list | high; not executed | Serial.SpliceStrandsOtherMachines | Registry.Remove |
| lib/ipcBinding.js:150-153 | `rx.copy(buffer, offset)` copies as many bytes as fit in the buffer after `offset`, but `rx.slice(length)` pops only `length` bytes | receive buffer "ABCD", a 4-byte buffer, offset 0, length 2: the read reports 4 bytes but "CD" stays buffered and is delivered again by the next read | copy at most `length` bytes, so that the bytes delivered are exactly the bytes popped | medium (it depends on the caller passing a buffer larger than `offset + length`); not executed | IpcBinding.ReadAsWrittenDuplicatesBytes | IpcBinding.Read |

=== FILE: ipc_binding.dfy ===
/**
 The emulated serial binding of lib/ipcBinding.js: a serial-port binding whose
 far end is an inter-process pipe. It keeps a receive buffer `rx` that open
 and incoming pipe messages append to and reads pop from, reports control
 lines from its client count, and records every opened pipe in a process-wide
 list with increasing serial numbers.

 The process-wide `state` object is the explicit `Pipes` value. A read that
 finds `rx` empty parks its arguments (`retry`, the `triggerRead` closure);
 the next pipe message re-runs the read with them.
 */
module IpcBinding {
  import opened Json

  type Byte = b: int | 0 <= b < 256

  /** The bytes "READY" that every open puts in the receive buffer. */
  const Ready: seq<Byte> := [82, 69, 65, 68, 89]

  const Manufacturer: string := "Cloud CNC E2E Tests"

  const DefaultBaudRate: int := 9600

  /** One entry of `state.pipes`. */
  datatype PipeInfo = PipeInfo(path: string, manufacturer: string, serialNumber: nat)

  /** The process-wide `state`: the opened pipes and the next serial number. */
  datatype Pipes = Pipes(pipes: seq<PipeInfo>, serialNumber: nat)

  datatype ReadArgs = ReadArgs(buffer: seq<Byte>, offset: nat, length: nat)

  datatype Binding = Binding(
    clients: int,            // IPC clients currently connected
    rx: seq<Byte>,           // received and not yet read
    isOpen: bool,
    serverId: string,        // the IPC server id, "/" + path
    baudRate: Value,         // undefined until the first `update`
    retry: Option<ReadArgs>) // the parked read `triggerRead` re-runs

  datatype ControlLines = ControlLines(cts: bool, dsr: bool, dcd: bool)

  datatype ReadResult =
    | Pending                                  // `rx` was empty: wait for a message
    | Done(bytesRead: nat, buffer: seq<Byte>)  // `{bytesRead, buffer}`

  /** Handling a pipe message: the parked read re-run, or a throw because nothing is parked. */
  datatype Delivery =
    | Retried(b: Binding, result: ReadResult)
    | NoParkedRead(b: Binding)   // `this.triggerRead` is not a function yet

  /** A binding as constructed: no clients, empty buffer, not open. */
  function New(): (b: Binding)
    ensures b.clients == 0 && b.rx == [] && !b.isOpen && b.retry.None?
  {
    Binding(0, [], false, "", Undefined, None)
  }

  /** The serial numbers handed out so far are strictly increasing and all below the counter. */
  predicate WellNumbered(s: Pipes)
  {
    && (forall j, k :: 0 <= j < k < |s.pipes| ==> s.pipes[j].serialNumber < s.pipes[k].serialNumber)
    && (forall k :: 0 <= k < |s.pipes| ==> s.pipes[k].serialNumber < s.serialNumber)
  }

  /**
   `list()`: every pipe opened so far. In a well-numbered state no two
   listed pipes share a serial number.
   */
  function List(s: Pipes): (r: seq<PipeInfo>)
    ensures |r| == |s.pipes|
    ensures WellNumbered(s) ==>
              forall j, k :: 0 <= j < |r| && 0 <= k < |r| && j != k ==> r[j].serialNumber != r[k].serialNumber
  {
    s.pipes
  }

  /**
   `open(path)`: record the pipe with the next serial number, name the IPC
   server after the path, and put "READY" after whatever `rx` held.
   */
  function Open(s: Pipes, b: Binding, path: string): (r: (Pipes, Binding))
    ensures r.0.pipes == s.pipes + [PipeInfo(path, Manufacturer, s.serialNumber)]
    ensures r.0.serialNumber > s.serialNumber
    ensures WellNumbered(s) ==> WellNumbered(r.0)
    ensures r.1.rx == b.rx + Ready
    ensures r.1.isOpen && r.1.serverId == "/" + path
    ensures r.1.clients == b.clients && r.1.retry == b.retry
  {
    (Pipes(s.pipes + [PipeInfo(path, Manufacturer, s.serialNumber)], s.serialNumber + 1),
     b.(rx := b.rx + Ready, isOpen := true, serverId := "/" + path))
  }

  /** Opening a fresh binding for each path in turn, starting from the process-wide state `s`. */
  function OpenAll(s: Pipes, paths: seq<string>): (r: Pipes)
    decreases |paths|
  {
    if |paths| == 0 then s
    else OpenAll(Open(s, New(), paths[0]).0, paths[1..])
  }

  /**
   After any sequence of opens, `list` returns what it returned before
   followed by one entry per open, in order, numbered on from the counter;
   the numbering stays strictly increasing.
   */
  lemma {:induction false} ListRecordsEveryOpen(s: Pipes, paths: seq<string>)
    requires WellNumbered(s)
    ensures var r := OpenAll(s, paths);
      && WellNumbered(r)
      && |List(r)| == |s.pipes| + |paths|
      && List(r)[..|s.pipes|] == s.pipes
      && r.serialNumber == s.serialNumber + |paths|
      && forall k :: 0 <= k < |paths| ==>
           List(r)[|s.pipes| + k] == PipeInfo(paths[k], Manufacturer, s.serialNumber + k)
    decreases |paths|
  {
    if |paths| > 0 {
      var s1 := Open(s, New(), paths[0]).0;
      ListRecordsEveryOpen(s1, paths[1..]);
      var r := OpenAll(s, paths);
      assert r == OpenAll(s1, paths[1..]);
      forall k | 0 <= k < |paths|
        ensures List(r)[|s.pipes| + k] == PipeInfo(paths[k], Manufacturer, s.serialNumber + k)
      {
        if k > 0 {
          assert paths[1..][k - 1] == paths[k];
        }
      }
      assert List(r)[..|s.pipes|] == List(r)[..|s1.pipes|][..|s.pipes|];
    }
  }

  /** `rx.slice(length)`: the buffer without its first `length` bytes (empty when shorter). */
  function Drop(rx: seq<Byte>, length: nat): (r: seq<Byte>)
  {
    if length <= |rx| then rx[length..] else []
  }

  function Min(a: int, b: int): (m: int)
  {
    if a <= b then a else b
  }

  /** `buffer` with `bytes` written over it starting at `offset`. */
  function Overwrite(buffer: seq<Byte>, offset: nat, bytes: seq<Byte>): (r: seq<Byte>)
    requires offset + |bytes| <= |buffer|
    ensures |r| == |buffer|
    ensures r[offset..offset + |bytes|] == bytes
    ensures r[..offset] == buffer[..offset] && r[offset + |bytes|..] == buffer[offset + |bytes|..]
  {
    buffer[..offset] + bytes + buffer[offset + |bytes|..]
  }

  /**
   The abstract binding refuses a read whose buffer cannot hold `length`
   bytes at `offset`; only reads that pass that check reach this code.
   */
  predicate Fits(args: ReadArgs)
  {
    args.offset + args.length <= |args.buffer|
  }

  /**
   `read` exactly as written: `rx.copy(buffer, offset)` copies as many bytes
   as fit in the buffer, not `length`, while `rx.slice(length)` pops only
   `length` of them.
   */
  function ReadAsWritten(b: Binding, args: ReadArgs): (r: (ReadResult, Binding))
    requires Fits(args)
    ensures |b.rx| == 0 <==> r.0.Pending?
    ensures r.0.Pending? ==> r.1 == b.(retry := Some(args))
    ensures r.0.Done? ==>
      && r.0.bytesRead <= |b.rx| && r.0.bytesRead <= |args.buffer| - args.offset
      && (r.0.bytesRead == |b.rx| || r.0.bytesRead == |args.buffer| - args.offset)
      && |r.0.buffer| == |args.buffer|
      && r.0.buffer[args.offset..args.offset + r.0.bytesRead] == b.rx[..r.0.bytesRead]
      && r.1 == b.(rx := Drop(b.rx, args.length))
  {
    if |b.rx| == 0 then (Pending, b.(retry := Some(args)))
    else
      var n := Min(|b.rx|, |args.buffer| - args.offset);
      (Done(n, Overwrite(args.buffer, args.offset, b.rx[..n])), b.(rx := Drop(b.rx, args.length)))
  }

  /**
   The read the code evidently means (`rx.copy(buffer, offset, 0, length)`):
   with data buffered, the first bytes of `rx` go into the buffer at `offset`
   and exactly those bytes leave `rx`, so nothing is delivered twice or lost;
   with nothing buffered the read parks its arguments and returns nothing yet.
   */
  function Read(b: Binding, args: ReadArgs): (r: (ReadResult, Binding))
    requires Fits(args)
    ensures |b.rx| == 0 <==> r.0.Pending?
    ensures r.0.Pending? ==> r.1 == b.(retry := Some(args))
    ensures r.0.Done? ==>
      var n := r.0.bytesRead;
      && (0 < n || args.length == 0)
      && n <= args.length && n <= |b.rx|
      && |r.0.buffer| == |args.buffer|
      && r.0.buffer[args.offset..args.offset + n] == b.rx[..n]
      && r.0.buffer[..args.offset] == args.buffer[..args.offset]
      && r.0.buffer[args.offset + n..] == args.buffer[args.offset + n..]
      && b.rx == b.rx[..n] + r.1.rx
      && r.1.rx == Drop(b.rx, args.length)
      && r.1 == b.(rx := r.1.rx)
  {
    if |b.rx| == 0 then (Pending, b.(retry := Some(args)))
    else
      var n := Min(|b.rx|, args.length);
      (Done(n, Overwrite(args.buffer, args.offset, b.rx[..n])), b.(rx := b.rx[n..]))
  }

  /**
   As written, a read into a buffer with room beyond `length` hands out bytes
   it leaves in `rx`: with "ABCD" buffered, a 4-byte buffer and `length` 2,
   it delivers all four bytes but keeps "CD", which the next read delivers
   again. The intended read delivers "AB" and keeps "CD".
   */
  lemma ReadAsWrittenDuplicatesBytes(b: Binding)
    requires b.rx == [65, 66, 67, 68]
    ensures var args := ReadArgs([0, 0, 0, 0], 0, 2);
      && ReadAsWritten(b, args).0 == Done(4, [65, 66, 67, 68])
      && ReadAsWritten(b, args).1.rx == [67, 68]
      && ReadAsWritten(b, args).0.bytesRead + |ReadAsWritten(b, args).1.rx| > |b.rx|
      && Read(b, args).0 == Done(2, [65, 66, 0, 0])
      && Read(b, args).1.rx == [67, 68]
  {
    var args := ReadArgs([0, 0, 0, 0], 0, 2);
    assert b.rx[..4] == [65, 66, 67, 68];
    assert b.rx[..2] == [65, 66];
    assert b.rx[2..] == [67, 68];
  }

  /**
   A pipe message: its bytes go after everything already in `rx`, then the
   parked read (if any) runs again with the same arguments. The parked read
   is never cleared, so every later message re-runs it.
   */
  function OnMessage(b: Binding, data: seq<Byte>): (d: Delivery)
    requires b.retry.Some? ==> Fits(b.retry.value)
    ensures d.NoParkedRead? <==> b.retry.None?
    ensures d.NoParkedRead? ==> d.b == b.(rx := b.rx + data)
    ensures d.Retried? ==> d.b.retry == b.retry && (d.result, d.b) == Read(b.(rx := b.rx + data), b.retry.value)
  {
    var appended := b.(rx := b.rx + data);
    match b.retry
    case None => NoParkedRead(appended)
    case Some(args) =>
      var r := Read(appended, args);
      Retried(r.1, r.0)
  }

  /**
   A read that finds `rx` empty does not complete; the next non-empty
   message completes it with the same arguments, delivering the front of
   that message.
   */
  lemma ReadWaitsForMessage(b: Binding, args: ReadArgs, data: seq<Byte>)
    requires Fits(args) && b.rx == [] && |data| > 0 && args.length > 0
    ensures var parked := Read(b, args);
      && parked.0 == Pending
      && parked.1.rx == []
      && var d := OnMessage(parked.1, data);
         && d.Retried?
         && d.result.Done?
         && d.result.bytesRead == Min(|data|, args.length)
         && d.result.buffer[args.offset..args.offset + d.result.bytesRead] == data[..d.result.bytesRead]
         && d.b.rx == data[d.result.bytesRead..]
  {
    var parked := Read(b, args);
    assert parked.1.rx + data == data;
  }

  /**
   An inbound message keeps every earlier byte, in order, ahead of its own:
   with no parked read all of it stays in `rx`; when the parked read
   completes, the bytes it copies into the parked buffer followed by what
   stays in `rx` are exactly the old buffer followed by the message. Whether
   a reader still waits on that buffer is not tracked: the parked arguments
   are never cleared, so a later message re-runs a read that has already
   been answered, and the bytes it copies reach no reader.
   */
  lemma MessageAppends(b: Binding, data: seq<Byte>)
    requires b.retry.Some? ==> Fits(b.retry.value)
    ensures var d := OnMessage(b, data);
      && (d.NoParkedRead? ==> d.b.rx == b.rx + data && d.b.rx[..|b.rx|] == b.rx)
      && (d.Retried? && d.result.Pending? ==> b.rx + data == [] && d.b.rx == [])
      && (d.Retried? && d.result.Done? ==>
            var o := b.retry.value.offset;
            var n := d.result.bytesRead;
            && o + n <= |d.result.buffer|
            && b.rx + data == d.result.buffer[o..o + n] + d.b.rx)
  {
  }

  /** `flush()`: nothing received stays unread. */
  function Flush(b: Binding): (r: Binding)
    ensures r.rx == [] && r == b.(rx := [])
  {
    b.(rx := [])
  }

  /** Flushing twice is flushing once, and a read after a flush waits for new data. */
  lemma FlushIdempotent(b: Binding, args: ReadArgs)
    requires Fits(args)
    ensures Flush(Flush(b)) == Flush(b)
    ensures Read(Flush(b), args).0.Pending?
  {
  }

  /** `get()`: clear-to-send always, data-set-ready never, carrier detect iff a client is connected. */
  function Get(b: Binding): (lines: ControlLines)
    ensures lines.cts && !lines.dsr
    ensures lines.dcd <==> b.clients > 0
  {
    ControlLines(true, false, b.clients > 0)
  }

  function ClientConnected(b: Binding): (r: Binding)
    ensures r.clients == b.clients + 1 && r == b.(clients := r.clients)
    ensures b.clients >= 0 ==> Get(r).dcd
  {
    b.(clients := b.clients + 1)
  }

  function ClientDisconnected(b: Binding): (r: Binding)
    ensures r.clients == b.clients - 1 && r == b.(clients := r.clients)
    ensures b.clients == 1 ==> !Get(r).dcd
  {
    b.(clients := b.clients - 1)
  }

  /**
   Carrier detect follows the clients: after `n` connections on a fresh
   binding it is up exactly when `n > 0`, and a disconnect undoes a connect.
   */
  lemma {:induction false} CarrierFollowsClients(b: Binding, n: nat)
    requires b.clients == 0
    ensures Get(Connects(b, n)).dcd <==> n > 0
    ensures ClientDisconnected(ClientConnected(b)) == b
    decreases n
  {
    if n > 0 {
      CarrierFollowsClients(b, n - 1);
      ConnectsCount(b, n);
    }
  }

  /**
   `n` successive client connections; a counting helper for
   `CarrierFollowsClients`, not an operation of the binding.
   */
  function Connects(b: Binding, n: nat): (r: Binding)
    decreases n
  {
    if n == 0 then b else ClientConnected(Connects(b, n - 1))
  }

  lemma {:induction false} ConnectsCount(b: Binding, n: nat)
    ensures Connects(b, n).clients == b.clients + n
    decreases n
  {
    if n > 0 {
      ConnectsCount(b, n - 1);
    }
  }

  /** `getBaudRate()`: `{baudRate}` with whatever the last `update` stored. */
  function GetBaudRate(b: Binding): (r: map<string, Value>)
    ensures r.Keys == {"baudRate"} && r["baudRate"] == b.baudRate
  {
    map["baudRate" := b.baudRate]
  }

  /**
   Read back through `getBaudRate`, the last `update` wins: the earlier one
   leaves no trace, and the rate read back is never falsy, so a port that
   was updated always reports a usable rate.
   */
  lemma UpdateLastWins(b: Binding, first: Value, second: Value)
    ensures Update(Update(b, first), second) == Update(b, second)
    ensures !Falsy(GetBaudRate(Update(b, second))["baudRate"])
    ensures GetBaudRate(Update(b, second))["baudRate"] == (if Falsy(second) then Num(9600) else second)
  {
  }

  /** `update(options)`: the given baud rate, or 9600 when it is missing, zero or otherwise falsy. */
  function Update(b: Binding, baudRate: Value): (r: Binding)
    ensures Falsy(baudRate) ==> r.baudRate == Num(DefaultBaudRate)
    ensures !Falsy(baudRate) ==> r.baudRate == baudRate
    ensures r == b.(baudRate := r.baudRate)
  {
    b.(baudRate := if Falsy(baudRate) then Num(DefaultBaudRate) else baudRate)
  }
}

=== FILE: json.dfy ===
/**
 The JavaScript values that travel through the gateway: parsed JSON frames,
 socket.io payloads and the objects the controllers emit. `Undefined` stands
 for a missing property; it never comes out of a JSON parse, but it can sit in
 an object the controllers build (`{machine: data.machine, payload: data.payload}`).
 Numbers are integers only.
 */
module Json {

  datatype Option<+T> = None | Some(value: T)

  datatype Value =
    | Undefined
    | Null
    | Bool(b: bool)
    | Num(n: int)
    | Str(s: string)
    | Arr(items: seq<Value>)
    | Obj(fields: map<string, Value>)

  /** Property access `v.key`: `None` when it throws a TypeError (on null or undefined). */
  function Member(v: Value, key: string): (r: Option<Value>)
    ensures r.None? <==> (v.Undefined? || v.Null?)
    ensures r.Some? && r.value != Undefined ==> v.Obj? && key in v.fields && v.fields[key] == r.value
    ensures v.Obj? && key in v.fields ==> r == Some(v.fields[key])
    ensures v.Obj? && key !in v.fields ==> r == Some(Undefined)
  {
    match v
    case Undefined => None
    case Null => None
    case Obj(fields) => Some(if key in fields then fields[key] else Undefined)
    case _ => Some(Undefined)
  }

  /** Property access on an object: a missing key reads as `undefined`. */
  function Field(fields: map<string, Value>, key: string): (v: Value)
  {
    if key in fields then fields[key] else Undefined
  }

  /** The values JavaScript treats as false in `x || y` (NaN aside, which integers cannot be). */
  predicate Falsy(v: Value)
  {
    v == Undefined || v == Null || v == Bool(false) || v == Num(0) || v == Str("")
  }

  /**
   The fields of an object literal as `JSON.stringify` writes them: a
   property whose value is `undefined` is left out of the text.
   */
  function Stringified(fields: map<string, Value>): (r: map<string, Value>)
    ensures forall k :: k in r <==> k in fields && fields[k] != Undefined
    ensures forall k :: k in r ==> r[k] == fields[k]
  {
    map k | k in fields && fields[k] != Undefined :: fields[k]
  }
}

=== FILE: registry.dfy ===
/**
 The machine list a serial controller keeps (`this.machines` in lib/serial.js):
 one entry per configured machine, holding the machine's configuration and its
 current serial port. Machines are found by exact id, never by position.
 */
module Registry {
  import opened Json

  /** A configured machine: `{_id, path, baudRate, failsafe}`. */
  datatype MachineConfig = MachineConfig(id: string, path: string, baudRate: int, failsafe: string)

  /** Identity of one serial port object; every `new serialport(...)` gets a fresh one. */
  type PortId = nat

  /** `{...machine, port}` */
  datatype Entry = Entry(machine: MachineConfig, port: PortId)

  predicate HasId(machines: seq<Entry>, id: string)
  {
    exists k :: 0 <= k < |machines| && machines[k].machine.id == id
  }

  /** The position `machines.find(m => m._id == id)` would stop at. */
  function Find(machines: seq<Entry>, id: string): (r: Option<nat>)
    ensures r.None? <==> !HasId(machines, id)
    ensures r.Some? ==> r.value < |machines| && machines[r.value].machine.id == id
    ensures r.Some? ==> forall k :: 0 <= k < r.value ==> machines[k].machine.id != id
  {
    if |machines| == 0 then None
    else if machines[0].machine.id == id then Some(0)
    else
      match Find(machines[1..], id)
      case None => None
      case Some(k) => Some(k + 1)
  }

  /** No two entries share an id, which every lookup by id silently relies on. */
  predicate DistinctIds(machines: seq<Entry>)
  {
    forall j, k :: 0 <= j < k < |machines| ==> machines[j].machine.id != machines[k].machine.id
  }

  /**
   The intended effect of dropping a machine after a fatal error: the entry
   that `send` and the reconnect timer would find for the id leaves the list,
   and every other entry stays, in order.
   */
  function Remove(machines: seq<Entry>, id: string): (r: seq<Entry>)
    ensures !HasId(machines, id) ==> r == machines
    ensures HasId(machines, id) ==> |r| == |machines| - 1
    ensures forall e :: e in r ==> e in machines
    ensures forall e :: e in machines && e.machine.id != id ==> e in r
    ensures DistinctIds(machines) ==> DistinctIds(r) && !HasId(r, id)
  {
    match Find(machines, id)
    case None => machines
    case Some(k) =>
      var r := machines[..k] + machines[k + 1..];
      assert forall j :: 0 <= j < |r| ==> r[j] == machines[if j < k then j else j + 1];
      r
  }

  /**
   Removing one id leaves every other machine where lookups find it: for any
   other id present before, `find` still stops at the very same entry.
   */
  lemma {:induction false} RemoveKeepsOtherMachines(machines: seq<Entry>, id: string, other: string)
    requires other != id && HasId(machines, other)
    ensures HasId(Remove(machines, id), other)
    ensures Remove(machines, id)[Find(Remove(machines, id), other).value] == machines[Find(machines, other).value]
  {
    var p := Find(machines, other).value;
    if HasId(machines, id) {
      var k := Find(machines, id).value;
      var r := machines[..k] + machines[k + 1..];
      assert Remove(machines, id) == r;
      assert p != k;
      var q := if p < k then p else p - 1;
      SkipIndex(machines, k, q);
      forall j | 0 <= j < q
        ensures r[j].machine.id != other
      {
        SkipIndex(machines, k, j);
      }
      FindFirst(r, other, q);
    }
  }

  /** Position `j` of a list with position `k` cut out. */
  lemma SkipIndex(machines: seq<Entry>, k: nat, j: nat)
    requires k < |machines| && j < |machines| - 1
    ensures (machines[..k] + machines[k + 1..])[j] == machines[if j < k then j else j + 1]
  {
  }

  /** `find` stops at the first entry with the id. */
  lemma FindFirst(machines: seq<Entry>, id: string, q: nat)
    requires q < |machines| && machines[q].machine.id == id
    requires forall j :: 0 <= j < q ==> machines[j].machine.id != id
    ensures Find(machines, id) == Some(q)
  {
    assert HasId(machines, id);
  }

  /**
   `this.machines = this.machines.splice(index, 1)` as written: `splice`
   returns the REMOVED elements, so the list is replaced by them.
   */
  function SpliceAsWritten(machines: seq<Entry>, index: nat): (r: seq<Entry>)
    ensures |r| <= 1
    ensures forall e :: e in r ==> e in machines
  {
    if index < |machines| then [machines[index]] else []
  }

  /**
   `machines.find(m => m._id == id).port = port`: `None` when no entry has
   the id (the property write on `undefined` throws a TypeError).
   */
  function SetPort(machines: seq<Entry>, id: string, port: PortId): (r: Option<seq<Entry>>)
    ensures r.None? <==> !HasId(machines, id)
    ensures r.Some? ==> |r.value| == |machines|
    ensures r.Some? ==> forall j :: 0 <= j < |machines| ==> r.value[j].machine == machines[j].machine
    ensures r.Some? ==> exists k :: (
              && 0 <= k < |machines|
              && machines[k].machine.id == id
              && (forall j :: 0 <= j < k ==> machines[j].machine.id != id)
              && r.value[k].port == port
              && (forall j :: 0 <= j < |machines| && j != k ==> r.value[j] == machines[j]))
  {
    match Find(machines, id)
    case None => None
    case Some(k) => Some(machines[k := machines[k].(port := port)])
  }

  /**
   The as-written list update keeps only the machine that failed and loses
   the others: with two machines, failing the first leaves exactly the first.
   */
  lemma SpliceKeepsOnlyTheFailedMachine(a: MachineConfig, b: MachineConfig)
    requires a.id != b.id
    ensures var ms := [Entry(a, 0), Entry(b, 1)];
      && SpliceAsWritten(ms, 0) == [Entry(a, 0)]
      && HasId(SpliceAsWritten(ms, 0), a.id)
      && !HasId(SpliceAsWritten(ms, 0), b.id)
      && Remove(ms, a.id) == [Entry(b, 1)]
  {
    var ms := [Entry(a, 0), Entry(b, 1)];
    assert ms[1..] == [Entry(b, 1)];
    assert ms[1..][1..] == [];
    assert !HasId(SpliceAsWritten(ms, 0), b.id);
  }
}

=== FILE: serial.dfy ===
/**
 The serial controller of lib/serial.js: one reconnecting link per configured
 machine, plus the machine list that `send` looks machines up in.

 Each machine's closure state (its attempt counter, its current port, the
 one-shot `open`/`close` listeners and the reconnect timers it has scheduled)
 is a `Link`. Port events, timer firings and errors are explicit `Event`s; a
 step yields the controller's next state and the events it emits, or a crash
 when the JavaScript would throw out of a listener. Events always come from a
 machine's current port: a replaced port has all its listeners removed.
 */
module Serial {
  import Supervisor
  import opened Registry

  /** The error text that marks a port that merely has not appeared yet. */
  const FileNotFound: string := "File not found"

  /** `pat` occurs somewhere in `s`: the regular-expression test on `error.message`. */
  predicate Contains(s: string, pat: string)
    decreases |s|
  {
    (|pat| <= |s| && s[..|pat|] == pat) || (|s| > 0 && Contains(s[1..], pat))
  }

  /** The per-machine closure: `attempts`, `port`, its one-shot listeners, pending timers. */
  datatype Link = Link(attempts: int, port: PortId, openArmed: bool, closeArmed: bool, timers: nat)

  datatype Controller = Controller(
    configs: seq<MachineConfig>,  // the constructor's `machines` argument, one closure per position
    links: seq<Link>,
    machines: seq<Entry>,         // `this.machines`
    nextPort: PortId,             // identity the next `new serialport(...)` receives
    maximumAttempts: int,
    errorListener: bool)          // the owner has an `error` listener registered
  {
    predicate Valid()
    {
      && |links| == |configs|
      && (forall k :: 0 <= k < |links| ==> links[k].port < nextPort)
      && (forall k :: 0 <= k < |machines| ==> machines[k].port < nextPort)
    }
  }

  /** No two configured machines share an id. */
  predicate DistinctConfigIds(configs: seq<MachineConfig>)
  {
    forall j, k :: 0 <= j < k < |configs| ==> configs[j].id != configs[k].id
  }

  /** The entry belongs to some configured machine and holds that machine's current port. */
  predicate OwnPort(c: Controller, e: Entry)
  {
    exists i :: 0 <= i < |c.configs| && i < |c.links| && c.configs[i] == e.machine && c.links[i].port == e.port
  }

  /**
   The routing invariant: with distinct ids, every listed machine holds the
   port its own link uses, so `send` to a machine reaches the port that
   machine's data arrives from.
   */
  predicate Routed(c: Controller)
  {
    && c.Valid()
    && DistinctConfigIds(c.configs)
    && DistinctIds(c.machines)
    && forall e :: e in c.machines ==> OwnPort(c, e)
  }

  datatype Event =
    | Opened(i: nat)                    // machine i's port reports `open`
    | Closed(i: nat)                    // ... reports `close`
    | Received(i: nat, data: string)    // ... reports `data` (already decoded to text)
    | Failed(i: nat, message: string)   // ... reports `error` with this message
    | Fired(i: nat)                     // one of machine i's reconnect timers elapses

  datatype Emitted =
    | OpenEvent
    | CloseEvent
    | DataEvent(id: string, data: string)
    | ErrorEvent(message: string)
    | MachineErrorEvent(id: string, message: string)
    | DisconnectEvent(machine: MachineConfig)

  datatype Fault =
    | UnhandledError(message: string)   // `emit('error')` with no listener throws
    | MissingMachine(id: string)        // the timer's `find(...)` returned undefined

  datatype Outcome = Next(c: Controller, emitted: seq<Emitted>) | Crash(fault: Fault)

  /** The controller right after construction: one fresh port per machine, nothing attempted yet. */
  function Init(configs: seq<MachineConfig>, maximumAttempts: int, errorListener: bool): (c: Controller)
    ensures c.Valid()
    ensures c.configs == configs && |c.machines| == |configs|
    ensures forall k :: 0 <= k < |configs| ==>
              && c.machines[k].machine == configs[k]
              && c.machines[k].port == c.links[k].port
              && c.links[k].attempts == 0
              && c.links[k].timers == 0
              && c.links[k].openArmed && c.links[k].closeArmed
    ensures forall j, k :: 0 <= j < k < |configs| ==> c.links[j].port != c.links[k].port
    ensures c.maximumAttempts == maximumAttempts && c.errorListener == errorListener
    ensures DistinctConfigIds(configs) ==> Routed(c)
  {
    Controller(
      configs,
      seq(|configs|, k requires 0 <= k < |configs| => Link(0, k, true, true, 0)),
      seq(|configs|, k requires 0 <= k < |configs| => Entry(configs[k], k)),
      |configs|,
      maximumAttempts,
      errorListener)
  }

  /** `reconnect()` of machine i: give up with `disconnect`, or count the attempt and arm a timer. */
  function Reconnect(c: Controller, i: nat): (r: (Controller, seq<Emitted>))
    requires c.Valid() && i < |c.configs|
    ensures r.0.Valid()
  {
    var link := c.links[i];
    match Supervisor.Reconnect(link.attempts, c.maximumAttempts)
    case GiveUp => (c, [DisconnectEvent(c.configs[i])])
    case Retry(a) => (c.(links := c.links[i := link.(attempts := a, timers := link.timers + 1)]), [])
  }

  /** `onOpen`: only the first `open` of a port is listened to; it resets the counter. */
  function OnOpen(c: Controller, i: nat): (o: Outcome)
    requires c.Valid() && i < |c.configs|
  {
    var link := c.links[i];
    if link.openArmed then
      Next(c.(links := c.links[i := link.(attempts := 0, openArmed := false)]), [OpenEvent])
    else Next(c, [])
  }

  /** `onClose`: only the first `close` of a port is listened to; it emits `close` and reconnects. */
  function OnClose(c: Controller, i: nat): (o: Outcome)
    requires c.Valid() && i < |c.configs|
  {
    var link := c.links[i];
    if link.closeArmed then
      var r := Reconnect(c.(links := c.links[i := link.(closeArmed := false)]), i);
      Next(r.0, [CloseEvent] + r.1)
    else Next(c, [])
  }

  /** `onError`: "File not found" reconnects; anything else drops the machine from the list. */
  function OnError(c: Controller, i: nat, message: string): (o: Outcome)
    requires c.Valid() && i < |c.configs|
  {
    var id := c.configs[i].id;
    if !c.errorListener then Crash(UnhandledError(message))
    else if Contains(message, FileNotFound) then
      var r := Reconnect(c, i);
      Next(r.0, [ErrorEvent(message)] + r.1)
    else
      Next(c.(machines := Remove(c.machines, id)), [ErrorEvent(message), MachineErrorEvent(id, message)])
  }

  /**
   `onError` as written: a fatal error replaces the machine list by what
   `splice(index, 1)` returns, the removed entry, with `index` the machine's
   position in the configuration. Every other branch is as in `OnError`.
   */
  function OnErrorAsWritten(c: Controller, i: nat, message: string): (o: Outcome)
    requires c.Valid() && i < |c.configs|
    ensures c.errorListener && !Contains(message, FileNotFound) ==>
              o.Next? && |o.c.machines| <= 1 && o.c.links == c.links
    ensures !c.errorListener || Contains(message, FileNotFound) ==> o == OnError(c, i, message)
  {
    if c.errorListener && !Contains(message, FileNotFound) then
      Next(c.(machines := SpliceAsWritten(c.machines, i)),
           [ErrorEvent(message), MachineErrorEvent(c.configs[i].id, message)])
    else OnError(c, i, message)
  }

  /** The reconnect timer: a new port replaces the old one in the closure and in the list. */
  function OnTimer(c: Controller, i: nat): (o: Outcome)
    requires c.Valid() && i < |c.configs|
  {
    var link := c.links[i];
    if link.timers == 0 then Next(c, [])
    else
      match SetPort(c.machines, c.configs[i].id, c.nextPort)
      case None => Crash(MissingMachine(c.configs[i].id))
      case Some(ms) =>
        Next(c.(links := c.links[i := Link(link.attempts, c.nextPort, true, true, link.timers - 1)],
                machines := ms,
                nextPort := c.nextPort + 1),
             [])
  }

  /** Any state a step leads to is again well formed, with the same configuration. */
  predicate Successor(c: Controller, o: Outcome)
  {
    o.Next? ==> && o.c.Valid()
                && o.c.configs == c.configs
                && o.c.maximumAttempts == c.maximumAttempts
                && o.c.errorListener == c.errorListener
  }

  /** One event handled by the listeners of lib/serial.js. */
  function Step(c: Controller, e: Event): (o: Outcome)
    requires c.Valid() && e.i < |c.configs|
    ensures Successor(c, o)
  {
    match e
    case Opened(i) => OnOpen(c, i)
    case Closed(i) => OnClose(c, i)
    case Received(i, data) => Next(c, [DataEvent(c.configs[i].id, data)])
    case Failed(i, message) => OnError(c, i, message)
    case Fired(i) => OnTimer(c, i)
  }

  predicate EventsFor(n: nat, events: seq<Event>)
  {
    forall k :: 0 <= k < |events| ==> events[k].i < n
  }

  /** Puts earlier emitted events in front of an outcome's own. */
  function Prepend(out: seq<Emitted>, o: Outcome): (r: Outcome)
  {
    match o
    case Crash(f) => Crash(f)
    case Next(c, out2) => Next(c, out + out2)
  }

  /** Continues a run from an outcome: a crash stays a crash. */
  function Continue(o: Outcome, events: seq<Event>): (r: Outcome)
    requires o.Next? ==> o.c.Valid() && EventsFor(|o.c.configs|, events)
    ensures o.Next? ==> Successor(o.c, r)
    decreases |events|, 1
  {
    match o
    case Crash(f) => Crash(f)
    case Next(c, out) => Prepend(out, Run(c, events))
  }

  /** The events handled one after another; a crash ends the run. */
  function Run(c: Controller, events: seq<Event>): (o: Outcome)
    requires c.Valid() && EventsFor(|c.configs|, events)
    ensures Successor(c, o)
    decreases |events|, 0
  {
    if |events| == 0 then Next(c, [])
    else Continue(Step(c, events[0]), events[1..])
  }

  lemma {:induction false} RunAppend(c: Controller, a: seq<Event>, b: seq<Event>)
    requires c.Valid() && EventsFor(|c.configs|, a) && EventsFor(|c.configs|, b)
    ensures EventsFor(|c.configs|, a + b)
    ensures Run(c, a + b) == Continue(Run(c, a), b)
    decreases |a|
  {
    assert EventsFor(|c.configs|, a + b);
    if |a| == 0 {
      assert a + b == b;
      assert Run(c, b) == Prepend([], Run(c, b));
    } else {
      assert (a + b)[0] == a[0];
      assert (a + b)[1..] == a[1..] + b;
      var s := Step(c, a[0]);
      if s.Next? {
        RunAppend(s.c, a[1..], b);
        var r := Run(s.c, a[1..]);
        if r.Next? {
          var t := Run(r.c, b);
          if t.Next? {
            assert s.emitted + (r.emitted + t.emitted) == (s.emitted + r.emitted) + t.emitted;
          }
        }
      }
    }
  }

  /** No `disconnect` among the emitted events. */
  predicate NoDisconnect(out: seq<Emitted>)
  {
    forall k :: 0 <= k < |out| ==> !out[k].DisconnectEvent?
  }

  /** `n` plain `close` events. */
  function Closes(n: nat): (out: seq<Emitted>)
  {
    seq(n, _ => CloseEvent)
  }

  /** A successful open resets the machine's counter to exactly 0, whatever it was. */
  lemma OpenResetsAttempts(c: Controller, i: nat)
    requires c.Valid() && i < |c.configs| && c.links[i].openArmed
    ensures var o := Step(c, Opened(i));
      && o.Next?
      && o.emitted == [OpenEvent]
      && o.c.links[i].attempts == 0
      && o.c.links[i].port == c.links[i].port
      && o.c.machines == c.machines
      && (forall j :: 0 <= j < |c.links| && j != i ==> o.c.links[j] == c.links[j])
  {
  }

  /**
   A close reported by the current port runs `reconnect` exactly once: either
   one more attempt with one more timer, or a single `disconnect` carrying the
   machine and no timer. A second close from the same port is not listened to.
   */
  lemma CloseReconnectsOnce(c: Controller, i: nat)
    requires c.Valid() && i < |c.configs| && c.links[i].closeArmed
    ensures var o := Step(c, Closed(i));
      && o.Next?
      && o.c.machines == c.machines
      && (if Supervisor.Exhausted(c.links[i].attempts, c.maximumAttempts) then
            && o.emitted == [CloseEvent, DisconnectEvent(c.configs[i])]
            && o.c.links[i].attempts == c.links[i].attempts
            && o.c.links[i].timers == c.links[i].timers
          else
            && o.emitted == [CloseEvent]
            && o.c.links[i].attempts == c.links[i].attempts + 1
            && o.c.links[i].timers == c.links[i].timers + 1)
      && Step(o.c, Closed(i)) == Next(o.c, [])
  {
  }

  /** With no limit, `reconnect` never gives up and always counts the attempt. */
  lemma UnlimitedCloseRetries(c: Controller, i: nat)
    requires c.Valid() && i < |c.configs| && c.links[i].closeArmed
    requires c.maximumAttempts == Supervisor.Unlimited
    ensures var o := Step(c, Closed(i));
      && o.Next?
      && o.emitted == [CloseEvent]
      && o.c.links[i].attempts == c.links[i].attempts + 1
  {
  }

  /** With no limit, no sequence of events ever produces a `disconnect`. */
  lemma {:induction false} UnlimitedNeverDisconnects(c: Controller, events: seq<Event>)
    requires c.Valid() && EventsFor(|c.configs|, events)
    requires c.maximumAttempts == Supervisor.Unlimited
    ensures Run(c, events).Next? ==> NoDisconnect(Run(c, events).emitted)
    decreases |events|
  {
    if |events| > 0 {
      var s := Step(c, events[0]);
      if s.Next? {
        assert NoDisconnect(s.emitted);
        UnlimitedNeverDisconnects(s.c, events[1..]);
      }
    }
  }

  /** `k` failed connection attempts of machine i: its port closes, then the reconnect timer fires. */
  function Cycles(i: nat, k: nat): (events: seq<Event>)
    ensures |events| == 2 * k
    ensures forall j :: 0 <= j < |events| ==> events[j].i == i
  {
    if k == 0 then [] else [Closed(i), Fired(i)] + Cycles(i, k - 1)
  }

  /**
   One failed attempt below the limit: the close is reported, the counter
   goes up by one, and the timer then installs a new port whose close is
   listened to again.
   */
  lemma OneFailedAttempt(c: Controller, i: nat)
    requires c.Valid() && i < |c.configs|
    requires c.links[i].closeArmed && HasId(c.machines, c.configs[i].id)
    requires !Supervisor.Exhausted(c.links[i].attempts, c.maximumAttempts)
    ensures EventsFor(|c.configs|, [Closed(i), Fired(i)])
    ensures var o := Run(c, [Closed(i), Fired(i)]);
      && o.Next?
      && o.emitted == [CloseEvent]
      && o.c.links[i].attempts == c.links[i].attempts + 1
      && o.c.links[i].timers == c.links[i].timers
      && o.c.links[i].openArmed && o.c.links[i].closeArmed
      && o.c.links[i].port == c.nextPort && o.c.links[i].port != c.links[i].port
      && HasId(o.c.machines, c.configs[i].id)
  {
    CloseReconnectsOnce(c, i);
    var c1 := Step(c, Closed(i)).c;
    FiredInstallsFreshPort(c1, i);
    var c2 := Step(c1, Fired(i)).c;
    assert Send(c2, c.configs[i].id, "").Written?;
    assert [Closed(i), Fired(i)][1..] == [Fired(i)];
    assert [Fired(i)][1..] == [];
    assert Run(c1, [Fired(i)]) == Next(c2, []);
  }

  /**
   While the limit is not reached, each failed attempt adds exactly one to
   the counter and emits a single `close`, never a `disconnect`; the
   machine's timers and its registry entry are as they were.
   */
  lemma {:induction false} CyclesCountAttempts(c: Controller, i: nat, k: nat)
    requires c.Valid() && i < |c.configs|
    requires c.links[i].closeArmed && HasId(c.machines, c.configs[i].id)
    requires c.maximumAttempts == Supervisor.Unlimited || c.links[i].attempts + k <= c.maximumAttempts
    ensures EventsFor(|c.configs|, Cycles(i, k))
    ensures var o := Run(c, Cycles(i, k));
      && o.Next?
      && o.emitted == Closes(k)
      && o.c.links[i].attempts == c.links[i].attempts + k
      && o.c.links[i].timers == c.links[i].timers
      && o.c.links[i].closeArmed
      && HasId(o.c.machines, c.configs[i].id)
    decreases k
  {
    if k > 0 {
      OneFailedAttempt(c, i);
      var mid := Run(c, [Closed(i), Fired(i)]);
      CyclesCountAttempts(mid.c, i, k - 1);
      RunAppend(c, [Closed(i), Fired(i)], Cycles(i, k - 1));
      assert [CloseEvent] + Closes(k - 1) == Closes(k);
    }
  }

  /**
   With a finite limit N and a fresh counter, the first N failed attempts are
   retried and the next close emits one `disconnect` carrying the machine and
   schedules no new port.
   */
  lemma FiniteLimitDisconnects(c: Controller, i: nat)
    requires c.Valid() && i < |c.configs|
    requires c.links[i].closeArmed && HasId(c.machines, c.configs[i].id)
    requires c.links[i].attempts == 0 && c.maximumAttempts >= 0
    ensures EventsFor(|c.configs|, Cycles(i, c.maximumAttempts) + [Closed(i)])
    ensures var o := Run(c, Cycles(i, c.maximumAttempts) + [Closed(i)]);
      && o.Next?
      && o.emitted == Closes(c.maximumAttempts + 1) + [DisconnectEvent(c.configs[i])]
      && o.c.links[i].attempts == c.maximumAttempts
      && o.c.links[i].timers == c.links[i].timers
  {
    var n := c.maximumAttempts;
    CyclesCountAttempts(c, i, n);
    var mid := Run(c, Cycles(i, n));
    assert EventsFor(|c.configs|, [Closed(i)]);
    RunAppend(c, Cycles(i, n), [Closed(i)]);
    var last := Step(mid.c, Closed(i));
    assert last.emitted == [CloseEvent, DisconnectEvent(c.configs[i])];
    assert [Closed(i)][1..] == [];
    assert Run(mid.c, [Closed(i)]) == Next(last.c, last.emitted + []);
    assert Closes(n) + [CloseEvent, DisconnectEvent(c.configs[i])]
        == Closes(n + 1) + [DisconnectEvent(c.configs[i])];
  }

  /** `k` reconnects of machine i that each succeed: close, timer, then the new port opens. */
  function ReopenCycles(i: nat, k: nat): (events: seq<Event>)
    ensures |events| == 3 * k
    ensures forall j :: 0 <= j < |events| ==> events[j].i == i
  {
    if k == 0 then [] else [Closed(i), Fired(i), Opened(i)] + ReopenCycles(i, k - 1)
  }

  /**
   Because a successful open resets the serial counter, a machine whose every
   reconnect succeeds never reaches a limit of at least one attempt, however
   many times its port drops.
   */
  lemma {:induction false} ReopeningLinkNeverGivesUp(c: Controller, i: nat, k: nat)
    requires c.Valid() && i < |c.configs|
    requires c.links[i].closeArmed && HasId(c.machines, c.configs[i].id)
    requires c.links[i].attempts == 0
    requires c.maximumAttempts == Supervisor.Unlimited || c.maximumAttempts >= 1
    ensures EventsFor(|c.configs|, ReopenCycles(i, k))
    ensures var o := Run(c, ReopenCycles(i, k));
      && o.Next?
      && NoDisconnect(o.emitted)
      && o.c.links[i].attempts == 0
      && o.c.links[i].closeArmed
      && HasId(o.c.machines, c.configs[i].id)
    decreases k
  {
    if k > 0 {
      OneFailedAttempt(c, i);
      var mid := Run(c, [Closed(i), Fired(i)]);
      var afterOpen := Step(mid.c, Opened(i));
      assert afterOpen == Next(afterOpen.c, [OpenEvent]);
      assert afterOpen.c.links[i].attempts == 0;
      assert afterOpen.c.machines == mid.c.machines;
      ReopeningLinkNeverGivesUp(afterOpen.c, i, k - 1);
      assert EventsFor(|c.configs|, [Closed(i), Fired(i)]);
      assert EventsFor(|c.configs|, [Opened(i)]);
      assert [Opened(i)][1..] == [];
      assert Run(mid.c, [Opened(i)]) == Next(afterOpen.c, [OpenEvent]);
      RunAppend(c, [Closed(i), Fired(i)], [Opened(i)]);
      assert [Closed(i), Fired(i)] + [Opened(i)] == [Closed(i), Fired(i), Opened(i)];
      RunAppend(c, [Closed(i), Fired(i), Opened(i)], ReopenCycles(i, k - 1));
    }
  }

  /**
   The serial counterpart of the cloud link's limit: after N reconnects that
   each opened, the (N+1)-th close is still retried, with the counter at 1,
   where the cloud link gives up on the same history.
   */
  lemma ReopenedLinkRetriesNextClose(c: Controller, i: nat, k: nat)
    requires c.Valid() && i < |c.configs|
    requires c.links[i].closeArmed && HasId(c.machines, c.configs[i].id)
    requires c.links[i].attempts == 0
    requires c.maximumAttempts == Supervisor.Unlimited || c.maximumAttempts >= 1
    ensures EventsFor(|c.configs|, ReopenCycles(i, k) + [Closed(i)])
    ensures var o := Run(c, ReopenCycles(i, k) + [Closed(i)]);
      && o.Next?
      && NoDisconnect(o.emitted)
      && o.c.links[i].attempts == 1
  {
    ReopeningLinkNeverGivesUp(c, i, k);
    var mid := Run(c, ReopenCycles(i, k));
    assert EventsFor(|c.configs|, [Closed(i)]);
    RunAppend(c, ReopenCycles(i, k), [Closed(i)]);
    var last := Step(mid.c, Closed(i));
    assert last.emitted == [CloseEvent];
    assert [Closed(i)][1..] == [];
    assert Run(mid.c, [Closed(i)]) == Next(last.c, [CloseEvent]);
    assert NoDisconnect(mid.emitted + [CloseEvent]) by {
      var out := mid.emitted + [CloseEvent];
      forall j | 0 <= j < |out|
        ensures !out[j].DisconnectEvent?
      {
        if j < |mid.emitted| {
          assert out[j] == mid.emitted[j];
        }
      }
    }
  }

  /** A step that leaves every port where it was keeps the controller routed. */
  lemma PortsKeptKeepsRouted(c: Controller, d: Controller)
    requires Routed(c) && d.Valid()
    requires d.configs == c.configs && |d.links| == |c.links|
    requires forall j :: 0 <= j < |c.links| ==> d.links[j].port == c.links[j].port
    requires forall e :: e in d.machines ==> e in c.machines
    requires DistinctIds(d.machines)
    ensures Routed(d)
  {
    forall e | e in d.machines
      ensures OwnPort(d, e)
    {
      var i :| 0 <= i < |c.configs| && i < |c.links| && c.configs[i] == e.machine && c.links[i].port == e.port;
      assert d.links[i].port == e.port;
    }
  }

  /** The timer's new port goes to the machine's own entry, so the controller stays routed. */
  lemma TimerKeepsRouted(c: Controller, i: nat)
    requires Routed(c) && i < |c.configs|
    ensures OnTimer(c, i).Next? ==> Routed(OnTimer(c, i).c)
  {
    var o := OnTimer(c, i);
    if o.Next? && c.links[i].timers > 0 {
      var id := c.configs[i].id;
      var k := Find(c.machines, id).value;
      var d := o.c;
      assert d.machines == c.machines[k := c.machines[k].(port := c.nextPort)];
      assert c.machines[k] in c.machines;
      var i0 :| 0 <= i0 < |c.configs| && i0 < |c.links| && c.configs[i0] == c.machines[k].machine
                && c.links[i0].port == c.machines[k].port;
      assert i0 == i;
      assert DistinctIds(d.machines) by {
        assert forall j :: 0 <= j < |d.machines| ==> d.machines[j].machine == c.machines[j].machine;
      }
      forall e | e in d.machines
        ensures OwnPort(d, e)
      {
        var j :| 0 <= j < |d.machines| && d.machines[j] == e;
        if j == k {
          assert d.links[i].port == e.port;
        } else {
          assert e == c.machines[j] && e in c.machines;
          var i1 :| 0 <= i1 < |c.configs| && i1 < |c.links| && c.configs[i1] == e.machine && c.links[i1].port == e.port;
          assert i1 != i;
          assert d.links[i1] == c.links[i1];
        }
      }
    }
  }

  /** Every event keeps a routed controller routed. */
  lemma StepKeepsRouted(c: Controller, e: Event)
    requires Routed(c) && e.i < |c.configs|
    ensures Step(c, e).Next? ==> Routed(Step(c, e).c)
  {
    var o := Step(c, e);
    if o.Next? {
      match e
      case Fired(i) => TimerKeepsRouted(c, i);
      case _ => PortsKeptKeepsRouted(c, o.c);
    }
  }

  /** Routing holds after any run from a routed controller, e.g. one built from distinct ids. */
  lemma {:induction false} RunKeepsRouted(c: Controller, events: seq<Event>)
    requires Routed(c) && EventsFor(|c.configs|, events)
    ensures Run(c, events).Next? ==> Routed(Run(c, events).c)
    decreases |events|
  {
    if |events| > 0 {
      StepKeepsRouted(c, events[0]);
      var s := Step(c, events[0]);
      if s.Next? {
        RunKeepsRouted(s.c, events[1..]);
      }
    }
  }

  /**
   Received text is emitted tagged with the id of the machine it came from,
   and in a routed controller `send` to that id writes to the very port the
   text arrived on: a reply reaches the machine that spoke.
   */
  lemma DataRepliesReachSender(c: Controller, i: nat, data: string, reply: string)
    requires Routed(c) && i < |c.configs| && HasId(c.machines, c.configs[i].id)
    ensures Step(c, Received(i, data)) == Next(c, [DataEvent(c.configs[i].id, data)])
    ensures Send(c, c.configs[i].id, reply) == Written(c.links[i].port, reply)
  {
    var k := Find(c.machines, c.configs[i].id).value;
    assert c.machines[k] in c.machines;
    var i0 :| 0 <= i0 < |c.configs| && i0 < |c.links| && c.configs[i0] == c.machines[k].machine
              && c.links[i0].port == c.machines[k].port;
    assert i0 == i;
  }

  /**
   A "File not found" error reports the error and reconnects; any other error
   reports it twice (plain, then tagged with the machine id), removes the
   machine from the list and does not reconnect. Without an `error` listener
   the emit throws. Other machines' links are never touched.
   */
  lemma ErrorHandling(c: Controller, i: nat, message: string)
    requires c.Valid() && i < |c.configs|
    ensures var o := Step(c, Failed(i, message));
      && (!c.errorListener ==> o == Crash(UnhandledError(message)))
      && (c.errorListener && Contains(message, FileNotFound) ==>
            && o.Next?
            && o.c.machines == c.machines
            && (forall j :: 0 <= j < |c.links| && j != i ==> o.c.links[j] == c.links[j])
            && o.c.links[i].port == c.links[i].port
            && (if Supervisor.Exhausted(c.links[i].attempts, c.maximumAttempts) then
                  && o.emitted == [ErrorEvent(message), DisconnectEvent(c.configs[i])]
                  && o.c.links[i] == c.links[i]
                else
                  && o.emitted == [ErrorEvent(message)]
                  && o.c.links[i].attempts == c.links[i].attempts + 1
                  && o.c.links[i].timers == c.links[i].timers + 1))
      && (c.errorListener && !Contains(message, FileNotFound) ==>
            && o.Next?
            && o.emitted == [ErrorEvent(message), MachineErrorEvent(c.configs[i].id, message)]
            && o.c.links == c.links
            && o.c.machines == Remove(c.machines, c.configs[i].id))
  {
  }

  datatype SendResult = Rejected | Written(port: PortId, data: string)

  /**
   `send(id, data)`: write to the port of the first machine whose id equals
   `id`; when there is none the promise rejects and nothing is written.
   */
  function Send(c: Controller, id: string, data: string): (r: SendResult)
    ensures r.Rejected? <==> !HasId(c.machines, id)
    ensures r.Written? ==> r.data == data && exists k :: (
              && 0 <= k < |c.machines|
              && c.machines[k].machine.id == id
              && c.machines[k].port == r.port
              && forall j :: 0 <= j < k ==> c.machines[j].machine.id != id)
  {
    match Find(c.machines, id)
    case None => Rejected
    case Some(k) => Written(c.machines[k].port, data)
  }

  /**
   After a fatal (not "File not found") error, sending to that machine is
   rejected when ids are distinct, and every other listed machine is reached
   exactly as before.
   */
  lemma SendAfterFatalErrorRejected(c: Controller, i: nat, message: string, data: string)
    requires c.Valid() && i < |c.configs| && c.errorListener && !Contains(message, FileNotFound)
    ensures var o := Step(c, Failed(i, message));
      && o.Next?
      && (DistinctIds(c.machines) ==> Send(o.c, c.configs[i].id, data) == Rejected)
      && forall other :: other != c.configs[i].id && HasId(c.machines, other) ==>
           Send(o.c, other, data) == Send(c, other, data)
  {
    var o := Step(c, Failed(i, message));
    forall other | other != c.configs[i].id && HasId(c.machines, other)
      ensures Send(o.c, other, data) == Send(c, other, data)
    {
      RemoveKeepsOtherMachines(c.machines, c.configs[i].id, other);
    }
  }

  /**
   When a reconnect timer fires, the first list entry with the machine's id
   gets the newly created port, which no link held before; nothing else in
   the list changes. With no such entry the timer callback throws.
   */
  lemma FiredInstallsFreshPort(c: Controller, i: nat)
    requires c.Valid() && i < |c.configs| && c.links[i].timers > 0
    ensures var o := Step(c, Fired(i));
      && (!HasId(c.machines, c.configs[i].id) ==> o == Crash(MissingMachine(c.configs[i].id)))
      && (HasId(c.machines, c.configs[i].id) ==>
            && o.Next?
            && o.c.links[i].port == c.nextPort
            && o.c.links[i].openArmed && o.c.links[i].closeArmed
            && o.c.links[i].attempts == c.links[i].attempts
            && o.c.links[i].timers == c.links[i].timers - 1
            && o.c.nextPort == c.nextPort + 1
            && (forall j :: 0 <= j < |c.links| ==> c.links[j].port != o.c.links[i].port)
            && (forall j :: 0 <= j < |c.links| && j != i ==> o.c.links[j] == c.links[j])
            && Send(o.c, c.configs[i].id, "").port == c.nextPort
            && exists k :: (
                 && 0 <= k < |c.machines|
                 && o.c.machines[k] == c.machines[k].(port := c.nextPort)
                 && forall j :: 0 <= j < |c.machines| && j != k ==> o.c.machines[j] == c.machines[j]))
  {
  }

  /**
   The as-written fatal-error path strands the other machines: with two
   machines, a fatal error on the first leaves only the first listed, so
   `send` to the second rejects and the second's next reconnect timer throws
   when its `find` comes back empty. With the intended removal the same
   close-and-timer sequence installs the second machine's new port.
   */
  lemma SpliceStrandsOtherMachines(a: MachineConfig, b: MachineConfig, maximumAttempts: int, message: string, data: string)
    requires a.id != b.id && !Contains(message, FileNotFound)
    requires maximumAttempts == Supervisor.Unlimited || maximumAttempts >= 1
    ensures var c := Init([a, b], maximumAttempts, true);
      var written := OnErrorAsWritten(c, 0, message);
      var intended := Step(c, Failed(0, message));
      && written.Next? && intended.Next?
      && written.c.machines == [Entry(a, 0)]
      && Send(written.c, b.id, data) == Rejected
      && Run(written.c, [Closed(1), Fired(1)]) == Crash(MissingMachine(b.id))
      && intended.c.machines == [Entry(b, 1)]
      && Send(intended.c, b.id, data) == Written(1, data)
      && Run(intended.c, [Closed(1), Fired(1)]).Next?
  {
    var c := Init([a, b], maximumAttempts, true);
    assert c.machines == [Entry(a, 0), Entry(b, 1)];
    assert c.links[1] == Link(0, 1, true, true, 0);
    var written := OnErrorAsWritten(c, 0, message).c;
    assert !HasId(written.machines, b.id);
    var w1 := Step(written, Closed(1));
    assert w1.Next? && w1.emitted == [CloseEvent] && w1.c.links[1].timers == 1;
    assert [Closed(1), Fired(1)][1..] == [Fired(1)];
    assert Run(written, [Closed(1), Fired(1)]) == Continue(w1, [Fired(1)]);
    assert Step(w1.c, Fired(1)) == Crash(MissingMachine(b.id));
    var intended := Step(c, Failed(0, message)).c;
    assert intended.machines == [Entry(b, 1)];
    assert HasId(intended.machines, b.id);
    OneFailedAttempt(intended, 1);
  }
}

=== FILE: socket.dfy ===
/**
 The socket.io cloud session of lib/socket.js: it forwards connection events,
 re-emits connection and socket errors only when someone listens for them,
 and validates `command`/`execute` requests against the machine list it was
 constructed with before re-emitting a fresh `{machine, payload}` object.

 Reconnection is socket.io's own business and is not modelled here; the
 session itself holds no state that events change.
 */
module Socket {
  import opened Json
  import opened Registry

  datatype Session = Session(
    machines: seq<MachineConfig>,  // the constructor's `machines`, never changed
    errorListeners: nat)           // `this.listeners('error').length`

  datatype Event =
    | Connected
    | ConnectError(message: string)
    | SocketError(message: string)
    | Disconnected
    | Command(data: Value)
    | Execute(data: Value)

  datatype Emitted =
    | ConnectedEvent
    | ErrorEvent(message: string)
    | DisconnectEvent
    | CommandEvent(request: Value)
    | ExecuteEvent(request: Value)

  /** Handling an event: what is emitted, or a throw (`data.machine` on null or undefined). */
  datatype Outcome = Emits(emitted: seq<Emitted>) | Crash

  /** A frame sent to the core: `socket.emit(event, body)`. */
  datatype Frame = Frame(event: string, body: Value)

  /**
   `machines.find(m => data.machine == m._id)` finds something. Machine ids are
   strings, so only a string equal to some id matches.
   */
  predicate Known(machines: seq<MachineConfig>, machine: Value)
  {
    machine.Str? && exists k :: 0 <= k < |machines| && machines[k].id == machine.s
  }

  /** The object re-emitted for a valid request: `{machine, payload}` and nothing else. */
  function Sanitized(fields: map<string, Value>): (r: Value)
    ensures r.Obj? && r.fields.Keys == {"machine", "payload"}
    ensures r.fields["machine"] == Field(fields, "machine")
    ensures r.fields["payload"] == Field(fields, "payload")
  {
    Obj(map["machine" := Field(fields, "machine"), "payload" := Field(fields, "payload")])
  }

  /** A `command` or `execute` listener: drop unknown machines, re-emit the rest sanitized. */
  function Route(s: Session, data: Value, isCommand: bool): (o: Outcome)
    ensures o.Crash? <==> data.Null? || data.Undefined?
    ensures o.Emits? && !Known(s.machines, Member(data, "machine").value) ==> o.emitted == []
    ensures o.Emits? && Known(s.machines, Member(data, "machine").value) ==>
              && data.Obj?
              && o.emitted == [if isCommand then CommandEvent(Sanitized(data.fields)) else ExecuteEvent(Sanitized(data.fields))]
  {
    match Member(data, "machine")
    case None => Crash
    case Some(machine) =>
      if !Known(s.machines, machine) then Emits([])
      else if isCommand then Emits([CommandEvent(Sanitized(data.fields))])
      else Emits([ExecuteEvent(Sanitized(data.fields))])
  }

  /** Errors are re-emitted only when an `error` listener exists; otherwise only logged. */
  function ForwardError(s: Session, message: string): (out: seq<Emitted>)
    ensures s.errorListeners > 0 <==> out == [ErrorEvent(message)]
    ensures s.errorListeners == 0 <==> out == []
  {
    if s.errorListeners > 0 then [ErrorEvent(message)] else []
  }

  /**
   One event handled by the listeners of lib/socket.js: connection and
   disconnection are forwarded as they are, errors only to listeners, and
   only a request whose body is null or undefined throws.
   */
  function Step(s: Session, e: Event): (o: Outcome)
    ensures e.Connected? ==> o == Emits([ConnectedEvent])
    ensures e.Disconnected? ==> o == Emits([DisconnectEvent])
    ensures o.Crash? <==> (e.Command? || e.Execute?) && (e.data.Null? || e.data.Undefined?)
    ensures o.Emits? ==> |o.emitted| <= 1
  {
    match e
    case Connected => Emits([ConnectedEvent])
    case ConnectError(message) => Emits(ForwardError(s, message))
    case SocketError(message) => Emits(ForwardError(s, message))
    case Disconnected => Emits([DisconnectEvent])
    case Command(data) => Route(s, data, true)
    case Execute(data) => Route(s, data, false)
  }

  /** `send(machine, payload)`: one `output` frame holding exactly `{machine, payload}`. */
  function Send(machine: Value, payload: Value): (f: Frame)
    ensures f.event == "output"
    ensures f.body.Obj? && f.body.fields.Keys == {"machine", "payload"}
    ensures f.body.fields["machine"] == machine && f.body.fields["payload"] == payload
  {
    Frame("output", Obj(map["machine" := machine, "payload" := payload]))
  }

  /**
   A request naming a registered machine is re-emitted as exactly
   `{machine, payload}` under its own event name, whatever other fields it
   carried; one naming no registered machine emits nothing, even when
   machines are registered.
   */
  lemma RequestRouting(s: Session, fields: map<string, Value>)
    ensures var cmd := Step(s, Command(Obj(fields)));
            var exe := Step(s, Execute(Obj(fields)));
      && cmd.Emits? && exe.Emits?
      && (Known(s.machines, Field(fields, "machine")) ==>
            && cmd.emitted == [CommandEvent(Obj(map["machine" := fields["machine"], "payload" := Field(fields, "payload")]))]
            && exe.emitted == [ExecuteEvent(Obj(map["machine" := fields["machine"], "payload" := Field(fields, "payload")]))])
      && (!Known(s.machines, Field(fields, "machine")) ==> cmd.emitted == [] && exe.emitted == [])
  {
  }

  /**
   Validation depends only on which ids are registered, never on their
   positions: two sessions whose machine lists hold the same ids route every
   request identically.
   */
  lemma RoutingIgnoresPositions(s1: Session, s2: Session, e: Event)
    requires Ids(s1.machines) == Ids(s2.machines)
    requires s1.errorListeners == s2.errorListeners
    ensures Step(s1, e) == Step(s2, e)
  {
    forall v: Value
      ensures Known(s1.machines, v) <==> Known(s2.machines, v)
    {
      KnownMeansRegisteredId(s1.machines, v);
      KnownMeansRegisteredId(s2.machines, v);
    }
  }

  function Ids(machines: seq<MachineConfig>): (ids: set<string>)
  {
    set k | 0 <= k < |machines| :: machines[k].id
  }

  lemma KnownMeansRegisteredId(machines: seq<MachineConfig>, v: Value)
    ensures Known(machines, v) <==> v.Str? && v.s in Ids(machines)
  {
    if v.Str? && v.s in Ids(machines) {
      var k :| 0 <= k < |machines| && machines[k].id == v.s;
    }
  }

  /**
   What a bare `this.emit('error', message)` would do: an EventEmitter with
   no `error` listener throws instead of emitting.
   */
  function EmitError(s: Session, message: string): (o: Outcome)
  {
    if s.errorListeners == 0 then Crash else Emits([ErrorEvent(message)])
  }

  /**
   The listener-count guard is exactly what keeps connection and socket
   errors from throwing: the session never crashes on them, agrees with a
   bare emit whenever that emit would not throw, and drops the error
   silently where a bare emit would throw.
   */
  lemma ErrorsGatedByListeners(s: Session, message: string)
    ensures Step(s, ConnectError(message)) == Step(s, SocketError(message))
    ensures Step(s, ConnectError(message)).Emits?
    ensures EmitError(s, message).Emits? ==> Step(s, ConnectError(message)) == EmitError(s, message)
    ensures EmitError(s, message).Crash? ==> Step(s, ConnectError(message)) == Emits([])
  {
  }

  /**
   An `output` frame built by `send` passes the session's own request
   sanitising unchanged: its body is already exactly `{machine, payload}`,
   and routed as a request naming a registered machine it comes back as is.
   */
  lemma OutputFrameIsSanitized(s: Session, machine: Value, payload: Value)
    ensures Sanitized(Send(machine, payload).body.fields) == Send(machine, payload).body
    ensures Known(s.machines, machine) ==>
              && Step(s, Command(Send(machine, payload).body)) == Emits([CommandEvent(Send(machine, payload).body)])
              && Step(s, Execute(Send(machine, payload).body)) == Emits([ExecuteEvent(Send(machine, payload).body)])
  {
    var body := Send(machine, payload).body;
    assert Sanitized(body.fields).fields == body.fields;
  }
}

=== FILE: supervisor.dfy ===
/**
 The reconnect decision shared by the two link supervisors: the per-machine
 serial link (lib/serial.js) and the cloud link (lib/websocket.js). Both run
 the same test on an attempt counter; what they do around it differs and is
 modelled in their own modules.
 */
module Supervisor {

  /** The `maximumAttempts` value that means "retry forever". */
  const Unlimited: int := -1

  datatype Decision =
    | GiveUp               // emit the terminal `disconnect`, schedule nothing
    | Retry(attempts: int) // the incremented counter; a fresh transport is scheduled

  /** The limit is finite and the counter has reached it. */
  predicate Exhausted(attempts: int, maximumAttempts: int)
  {
    maximumAttempts != Unlimited && attempts >= maximumAttempts
  }

  /** The head of `reconnect`: give up once the limit is reached, otherwise count one more attempt. */
  function Reconnect(attempts: int, maximumAttempts: int): (d: Decision)
    ensures d.GiveUp? <==> Exhausted(attempts, maximumAttempts)
    ensures d.Retry? ==> d.attempts == attempts + 1
  {
    if Exhausted(attempts, maximumAttempts) then GiveUp else Retry(attempts + 1)
  }
}

=== FILE: websocket.dfy ===
/**
 The cloud link of lib/websocket.js: one reconnecting websocket to the core
 server, which decodes inbound frames by their `event` field and hands
 `command` and `execute` requests to its owner together with a responder.

 Socket events and timer firings are explicit `Event`s. The responder closure
 is the `Responder` value: it remembers the request it answers, and invoking
 it (`Respond`) writes the response frame to whatever socket is current at
 that moment. Unlike the serial link, a successful open does not reset the
 attempt counter.
 */
module Websocket {
  import Supervisor
  import opened Json

  /** Identity of one `ws` client object; every reconnect creates a fresh one. */
  type SocketId = nat

  datatype Cloud = Cloud(
    attempts: int,
    socket: SocketId,      // `this.socket`
    nextSocket: SocketId,  // identity the next `new ws(...)` receives
    timers: nat,           // reconnect timers scheduled and not yet fired
    maximumAttempts: int)
  {
    predicate Valid()
    {
      socket < nextSocket
    }
  }

  /** A received frame after `JSON.parse`: a value, or text that does not parse. */
  datatype Inbound = Parsed(value: Value) | Unparsable

  datatype Event =
    | Opened
    | Closed
    | Message(frame: Inbound)
    | Errored(message: string)
    | Fired            // one reconnect timer elapses

  datatype ReplyKind = CommandReply | ExecuteReply

  /** The callback handed out with a request: it answers that request and no other. */
  datatype Responder = Responder(kind: ReplyKind, request: map<string, Value>)

  datatype Emitted =
    | OpenEvent
    | CommandEvent(message: Value, respond: Responder)
    | ExecuteEvent(message: Value, respond: Responder)
    | DisconnectEvent

  datatype Fault =
    | ParseError          // `JSON.parse` throws
    | PropertyOfNull      // the frame parsed to `null`, so `message.event` throws

  datatype Outcome = Next(w: Cloud, emitted: seq<Emitted>) | Crash(fault: Fault)

  /** A frame written to a socket. */
  datatype Outbound = Outbound(socket: SocketId, frame: map<string, Value>)

  /** The link right after construction: the first socket, no attempts. */
  function Init(maximumAttempts: int): (w: Cloud)
    ensures w.Valid() && w.attempts == 0 && w.timers == 0 && w.maximumAttempts == maximumAttempts
  {
    Cloud(0, 0, 1, 0, maximumAttempts)
  }

  /** `onMessage`: dispatch on the frame's `event`; anything else is ignored. */
  function OnMessage(w: Cloud, frame: Inbound): (o: Outcome)
  {
    match frame
    case Unparsable => Crash(ParseError)
    case Parsed(v) =>
      match Member(v, "event")
      case None => Crash(PropertyOfNull)
      case Some(event) =>
        if event == Str("command") then
          Next(w, [CommandEvent(v, Responder(CommandReply, v.fields))])
        else if event == Str("execute") then
          Next(w, [ExecuteEvent(v, Responder(ExecuteReply, v.fields))])
        else Next(w, [])
  }

  /** `reconnect()`: give up with `disconnect`, or count the attempt and arm a timer. */
  function OnClose(w: Cloud): (o: Outcome)
  {
    match Supervisor.Reconnect(w.attempts, w.maximumAttempts)
    case GiveUp => Next(w, [DisconnectEvent])
    case Retry(a) => Next(w.(attempts := a, timers := w.timers + 1), [])
  }

  /** The reconnect timer: a fresh socket replaces the current one; the counter is left alone. */
  function OnTimer(w: Cloud): (o: Outcome)
  {
    if w.timers == 0 then Next(w, [])
    else Next(w.(socket := w.nextSocket, nextSocket := w.nextSocket + 1, timers := w.timers - 1), [])
  }

  predicate Successor(w: Cloud, o: Outcome)
  {
    o.Next? ==> o.w.Valid() && o.w.maximumAttempts == w.maximumAttempts && o.w.attempts >= w.attempts
  }

  /** One event handled by the listeners of lib/websocket.js. */
  function Step(w: Cloud, e: Event): (o: Outcome)
    requires w.Valid()
    ensures Successor(w, o)
  {
    match e
    case Opened => Next(w, [OpenEvent])
    case Closed => OnClose(w)
    case Message(frame) => OnMessage(w, frame)
    case Errored(_) => Next(w, [])
    case Fired => OnTimer(w)
  }

  function Prepend(out: seq<Emitted>, o: Outcome): (r: Outcome)
  {
    match o
    case Crash(f) => Crash(f)
    case Next(w, out2) => Next(w, out + out2)
  }

  function Continue(o: Outcome, events: seq<Event>): (r: Outcome)
    requires o.Next? ==> o.w.Valid()
    ensures o.Next? ==> Successor(o.w, r)
    decreases |events|, 1
  {
    match o
    case Crash(f) => Crash(f)
    case Next(w, out) => Prepend(out, Run(w, events))
  }

  /** The events handled one after another; a crash ends the run. */
  function Run(w: Cloud, events: seq<Event>): (o: Outcome)
    requires w.Valid()
    ensures Successor(w, o)
    decreases |events|, 0
  {
    if |events| == 0 then Next(w, [])
    else Continue(Step(w, events[0]), events[1..])
  }

  lemma {:induction false} RunAppend(w: Cloud, a: seq<Event>, b: seq<Event>)
    requires w.Valid()
    ensures Run(w, a + b) == Continue(Run(w, a), b)
    decreases |a|
  {
    if |a| == 0 {
      assert a + b == b;
      assert Run(w, b) == Prepend([], Run(w, b));
    } else {
      assert (a + b)[0] == a[0];
      assert (a + b)[1..] == a[1..] + b;
      var s := Step(w, a[0]);
      if s.Next? {
        RunAppend(s.w, a[1..], b);
        var r := Run(s.w, a[1..]);
        if r.Next? {
          var t := Run(r.w, b);
          if t.Next? {
            assert s.emitted + (r.emitted + t.emitted) == (s.emitted + r.emitted) + t.emitted;
          }
        }
      }
    }
  }

  /**
   The attempt counter never goes down over the link's lifetime: no event,
   including a successful open, resets it.
   */
  lemma {:induction false} AttemptsNeverDecrease(w: Cloud, events: seq<Event>)
    requires w.Valid()
    ensures Run(w, events).Next? ==> Run(w, events).w.attempts >= w.attempts
    ensures Step(w, Opened) == Next(w, [OpenEvent])
    decreases |events|
  {
    if |events| > 0 {
      var s := Step(w, events[0]);
      if s.Next? {
        AttemptsNeverDecrease(s.w, events[1..]);
      }
    }
  }

  /** Every close runs `reconnect` exactly once: one more attempt and timer, or one `disconnect`. */
  lemma CloseReconnectsOnce(w: Cloud)
    requires w.Valid()
    ensures var o := Step(w, Closed);
      && o.Next?
      && o.w.socket == w.socket
      && (if Supervisor.Exhausted(w.attempts, w.maximumAttempts) then
            o == Next(w, [DisconnectEvent])
          else
            o == Next(w.(attempts := w.attempts + 1, timers := w.timers + 1), []))
  {
  }

  predicate NoDisconnect(out: seq<Emitted>)
  {
    forall k :: 0 <= k < |out| ==> !out[k].DisconnectEvent?
  }

  /** With no limit, no sequence of events ever produces a `disconnect`. */
  lemma {:induction false} UnlimitedNeverDisconnects(w: Cloud, events: seq<Event>)
    requires w.Valid() && w.maximumAttempts == Supervisor.Unlimited
    ensures Run(w, events).Next? ==> NoDisconnect(Run(w, events).emitted)
    decreases |events|
  {
    if |events| > 0 {
      var s := Step(w, events[0]);
      if s.Next? {
        assert NoDisconnect(s.emitted);
        UnlimitedNeverDisconnects(s.w, events[1..]);
      }
    }
  }

  /**
   `k` reconnect cycles: the socket closes and the timer brings a new one;
   when `reopen` holds, each new socket also opens successfully.
   */
  function Cycles(k: nat, reopen: bool): (events: seq<Event>)
    ensures |events| == (if reopen then 3 else 2) * k
  {
    if k == 0 then []
    else [Closed, Fired] + (if reopen then [Opened] else []) + Cycles(k - 1, reopen)
  }

  function Opens(k: nat, reopen: bool): (out: seq<Emitted>)
  {
    if reopen then seq(k, _ => OpenEvent) else []
  }

  lemma OneCycle(w: Cloud, reopen: bool)
    requires w.Valid() && !Supervisor.Exhausted(w.attempts, w.maximumAttempts)
    ensures var o := Run(w, [Closed, Fired] + (if reopen then [Opened] else []));
      && o.Next?
      && o.emitted == Opens(1, reopen)
      && o.w.attempts == w.attempts + 1
      && o.w.timers == w.timers
  {
    var c1 := Step(w, Closed).w;
    var c2 := Step(c1, Fired).w;
    var tail := if reopen then [Opened] else [];
    assert ([Closed, Fired] + tail)[1..] == [Fired] + tail;
    assert ([Fired] + tail)[1..] == tail;
    if reopen {
      assert tail[1..] == [];
      assert Run(c2, tail) == Next(c2, [OpenEvent]);
    } else {
      assert Run(c2, tail) == Next(c2, []);
    }
    assert Step(c1, Fired) == Next(c2, []);
    assert Run(c1, [Fired] + tail) == Prepend([], Run(c2, tail));
    assert Step(w, Closed) == Next(c1, []);
    assert Run(w, [Closed, Fired] + tail) == Prepend([], Run(c1, [Fired] + tail));
  }

  /**
   While the limit is not reached, every cycle adds exactly one to the
   counter, whether or not the new socket opened, and none emits `disconnect`.
   */
  lemma {:induction false} CyclesCountAttempts(w: Cloud, k: nat, reopen: bool)
    requires w.Valid()
    requires w.maximumAttempts == Supervisor.Unlimited || w.attempts + k <= w.maximumAttempts
    ensures var o := Run(w, Cycles(k, reopen));
      && o.Next?
      && o.emitted == Opens(k, reopen)
      && o.w.attempts == w.attempts + k
      && o.w.timers == w.timers
    decreases k
  {
    if k > 0 {
      var head := [Closed, Fired] + (if reopen then [Opened] else []);
      OneCycle(w, reopen);
      var mid := Run(w, head);
      CyclesCountAttempts(mid.w, k - 1, reopen);
      RunAppend(w, head, Cycles(k - 1, reopen));
      assert Opens(1, reopen) + Opens(k - 1, reopen) == Opens(k, reopen);
    }
  }

  /**
   With a finite limit N and a fresh counter, N close events are retried and
   the next one emits `disconnect` — even if every new socket opened in
   between, since opening does not reset the counter.
   */
  lemma FiniteLimitDisconnects(w: Cloud, reopen: bool)
    requires w.Valid() && w.attempts == 0 && w.maximumAttempts >= 0
    ensures var o := Run(w, Cycles(w.maximumAttempts, reopen) + [Closed]);
      && o.Next?
      && o.emitted == Opens(w.maximumAttempts, reopen) + [DisconnectEvent]
      && o.w.attempts == w.maximumAttempts
      && o.w.timers == w.timers
  {
    var n := w.maximumAttempts;
    CyclesCountAttempts(w, n, reopen);
    var mid := Run(w, Cycles(n, reopen));
    RunAppend(w, Cycles(n, reopen), [Closed]);
    assert [Closed][1..] == [];
    assert Run(mid.w, [Closed]) == Next(mid.w, [DisconnectEvent]);
  }

  /** The event name of a response frame. */
  function ReplyEvent(kind: ReplyKind): (event: string)
  {
    match kind
    case CommandReply => "response:command"
    case ExecuteReply => "response:execute"
  }

  /** The key that carries the result in a response frame. */
  function ReplyField(kind: ReplyKind): (key: string)
  {
    match kind
    case CommandReply => "response"
    case ExecuteReply => "success"
  }

  /**
   Calling a responder with `result`: the frame `{_id, event, machine,
   response|success}` as `JSON.stringify` writes it, sent on the current socket.
   */
  function Respond(w: Cloud, r: Responder, result: Value): (out: Outbound)
    ensures out.socket == w.socket
    ensures out.frame.Keys <= {"_id", "event", "machine", ReplyField(r.kind)}
    ensures "event" in out.frame && out.frame["event"] == Str(ReplyEvent(r.kind))
    ensures result != Undefined ==> ReplyField(r.kind) in out.frame && out.frame[ReplyField(r.kind)] == result
    ensures forall key :: key in {"_id", "machine"} ==>
              (key in out.frame <==> key in r.request && r.request[key] != Undefined)
              && (key in out.frame ==> out.frame[key] == r.request[key])
  {
    Outbound(w.socket, Stringified(map[
      "_id" := Field(r.request, "_id"),
      "event" := Str(ReplyEvent(r.kind)),
      "machine" := Field(r.request, "machine"),
      ReplyField(r.kind) := result]))
  }

  /**
   A `command` or `execute` frame is emitted as parsed, with a responder whose
   frame carries the request's `_id` and `machine` and the matching
   `response:` event. Nothing is sent until the responder is called.
   */
  lemma RequestIsEmittedAndAnswered(w: Cloud, fields: map<string, Value>, result: Value)
    requires w.Valid() && "event" in fields
    requires fields["event"] == Str("command") || fields["event"] == Str("execute")
    requires "_id" in fields && "machine" in fields
    requires fields["_id"] != Undefined && fields["machine"] != Undefined && result != Undefined
    ensures var o := Step(w, Message(Parsed(Obj(fields))));
      && o.Next?
      && o.w == w
      && |o.emitted| == 1
      && (fields["event"] == Str("command") <==> o.emitted[0].CommandEvent?)
      && (fields["event"] == Str("execute") <==> o.emitted[0].ExecuteEvent?)
      && o.emitted[0].message == Obj(fields)
      && var frame := Respond(w, o.emitted[0].respond, result).frame;
         && frame["_id"] == fields["_id"]
         && frame["machine"] == fields["machine"]
         && frame["event"] == (if o.emitted[0].CommandEvent? then Str("response:command") else Str("response:execute"))
         && frame[if o.emitted[0].CommandEvent? then "response" else "success"] == result
  {
    var r := Step(w, Message(Parsed(Obj(fields)))).emitted[0].respond;
    var frame := Respond(w, r, result).frame;
    assert "_id" in {"_id", "machine"};
    assert "machine" in {"_id", "machine"};
  }

  /**
   A parsed frame whose `event` is neither `command` nor `execute` (or that
   is not an object at all) emits nothing and sends nothing; a frame that does
   not parse, or parses to `null`, makes the listener throw.
   */
  lemma OtherFramesIgnored(w: Cloud, v: Value)
    requires w.Valid()
    ensures v.Obj? && Field(v.fields, "event") != Str("command") && Field(v.fields, "event") != Str("execute")
            ==> Step(w, Message(Parsed(v))) == Next(w, [])
    ensures !v.Obj? && !v.Null? && !v.Undefined? ==> Step(w, Message(Parsed(v))) == Next(w, [])
    ensures Step(w, Message(Parsed(Null))) == Crash(PropertyOfNull)
    ensures Step(w, Message(Unparsable)) == Crash(ParseError)
  {
  }
}
